=== FILE: README.md ===
# STpointer reference bookkeeping in Dafny

STpointer is a C++ header (`STpointer.h`) that frees objects in a possibly
cyclic object graph without a garbage collector. Every managed object
(`STnode`) keeps an ordered list of the handles that point at it
(`referencesToThis`). The handle at index 0 is the object's single *tree*
edge, its primary. A handle (`STpointer`) records two raw pointers:

- `pointer`: the object it refers to.
- `parent`: the object that holds the handle as a field.

When a primary handle lets go, `unset` decides what happens to the object:

- It keeps the object when another referrer can take over as primary.
  `unloop` finds such a referrer and swaps it to index 0.
- It deletes the object when it is reachable only through itself.
  `loopsTo` walks the container chain to decide this.

The model replaces the heap with an arena (`Graph.Arena`):

- a map from node id to its referrer list;
- a map from handle id to its `target` and `parent`;
- a set of deleted nodes, which stands for `delete`.

Every operation is a pure function from arena to arena. `loopsTo` and
`unloop` recurse with no bound in the source, and `unset` and the destructor
call them. Each of these therefore takes a `fuel` argument and answers
`Diverged` when the fuel runs out, so nothing assumes they terminate.

Where the source has undefined behaviour, the model has a precondition
instead:

- indexing `[0]` of an empty list;
- following a pointer to a node id the arena does not hold.

A deleted object is not one of these. It keeps its entry in the arena, so
a handle that still points at it can be read, and `unset` can delete it
again (see Left out).

The predicates are `PrimaryReadable`, `Walkable`, `Registered`,
`UnloopReady`, `UnsetReady`, `AssignReady` and `RepairReady`.
`PrimaryReadable` and `AssignReady` demand only what the lines they guard
dereference. The walks ask for more:

- `Walkable` is global. Every handle in the arena must have a resolvable
  target, and every container must have a primary, not only the handles the
  walk visits. It does not hold while an object's constructor calls
  `setParent(this)` on its fields before the object is wrapped (line 10). A
  `delete` does not change it (`Pointer.Delete`).
- `Registered` is global too. Every listed handle must point back at the node
  that lists it. The program's own `operator=` breaks it
  (`RebindLeavesStaleEntry`).

`UnloopReady`, `UnsetReady` (when a repair is needed) and `RepairReady`
include both, so the walks and `unset` are stated only on arenas that meet
them (see Left out).

Modules:

- `Graph` (graph.dfy): ids, the arena, and the well-formedness predicates.
- `Node` (node.dfy): `addReferenceToThis` and `removeReferenceToThis`.
- `Walk` (walk.dfy): `isTree`, `loopsTo`, and `unloop` both as written and
  corrected.
- `Pointer` (pointer.dfy): the constructors, `setParent`, `operator=`
  lines 130-137, `unset` as written and corrected, and the destructor.
- `Scenarios` (scenarios.dfy): small graphs on which the two readings of
  `unset` differ, and one on which an assignment differs from a reset.

Three lines of `unset`'s repair path are wrong as written (see Findings):
line 179 of `unset`, and lines 76 and 83 of `unloop`. Each function that
contains them is modelled twice:

- `UnloopAsWritten` and `UnsetAsWritten` follow the code literally.
- `Unloop` and `Unset` are the corrected versions.
- `DestroyAsWritten` runs the destructor over `UnsetAsWritten`, and
  `Destroy` over `Unset`.

Lines 130-137 of the assignment operator do the following, and the model
follows them literally:

- Assigning a handle with the same target changes nothing (line 130).
- A null source deregisters the handle but leaves its pointer (line 132).
- Otherwise a non-empty handle is pointed at the new target first
  (line 135). It is then removed from and re-appended to the *new* target's
  list (lines 136-137).
- The old target's list keeps a stale entry (`RebindLeavesStaleEntry`).
- Nothing is released.
- An empty handle assigned a non-null source stays empty.

The tail (lines 138-143) then asks the primary of the handle's container
whether it loops to the container, so a handle without a container makes
line 142 dereference a null `parent`. The tail is not modelled (see Left
out). For a handle whose container is held by a root, the question at
line 142 is answered false and the assignment returns. There one whole
assignment does not give the same graph as a reset followed by a
registration with the new target (`AssignIsNotResetThenRegister`).

## Model

| member | source | states |
|---|---|---|
| Node.AddReference | STpointer.h:34-36 | registration appends the handle at the end of the target's list; earlier entries, the primary included, and all other lists, handles and the deleted set are unchanged |
| Node.RemoveFirst | STpointer.h:38-44 | deregistration shortens the list by exactly one when the handle is present and leaves the length alone otherwise |
| Node.RemoveReference | STpointer.h:38-44 | the front-to-back search loop that erases at the first match and stops: its result is the list with exactly the first occurrence cut out, or the unchanged list when the handle is absent |
| Node.RemoveFirstMultiset | STpointer.h:38-44 | deregistration loses exactly one copy of the handle, if any, and keeps every other entry |
| Node.RemoveFirstSplices | STpointer.h:38-44 | the result is the prefix before the first occurrence followed by the suffix after it, so the other entries keep their order; an absent handle leaves the list unchanged |
| Node.RemoveUndoesAppend | STpointer.h:34-44 | deregistering a handle that was just appended to a list that did not contain it gives back the original list |
| Node.RemoveFirstUnlinks | STpointer.h:38-44 | in a list without duplicates, deregistration removes the handle completely and keeps the list free of duplicates |
| Node.Deregister | STpointer.h:38-44 | only the target's list changes; it loses one copy of the handle; its length drops by one exactly when the handle was listed |
| Node.DeregisterKeepsWalkable | STpointer.h:38-44 | removing a list entry keeps every remaining entry pointing back at its node and every walked pointer resolvable, as long as the list keeps a primary |
| Node.Swap | STpointer.h:79 | std::swap of two list positions exchanges exactly those two entries and is a permutation |
| Walk.IsTree | STpointer.h:62-66 | isTree is true exactly when the handle has a target and its first registration in the target's list is at index 0; an empty handle is never a tree edge |
| Walk.AddReferenceKeepsPrimary | STpointer.h:34-36 | registering any handle never changes which handle is primary for any handle already readable |
| Walk.LoopsTo | STpointer.h:68-72 | loopsTo(node) answers true only for a node that exists and has a primary, the container met on the climb; it is still unfinished only while the handle has a container other than node |
| Walk.LoopsToIsAncestry | STpointer.h:68-72 | loopsTo(node) is true iff node is among the containers met by climbing parent and primary referrer, false iff that climb reaches a handle without a parent first, and Diverged only when the climb is longer than the fuel |
| Walk.LoopsToFuelMono | STpointer.h:68-72 | once loopsTo has an answer, more fuel gives the same answer |
| Walk.FindEscape | STpointer.h:77-82 | the search loop of unloop returns the first index from 1 on whose referrer does not loop to stop, with every earlier referrer looping; it returns none only when every referrer loops |
| Walk.FindEscapeFinishes | STpointer.h:77-82 | the search loop of unloop finishes once every loopsTo it starts finishes, with any larger fuel |
| Walk.Promote | STpointer.h:79 | the swap makes referrer j primary, puts the old primary at j, and leaves every other position, every other list, every handle and the deleted set unchanged |
| Walk.UnloopAsWritten | STpointer.h:75-84 | unloop as written: at a handle whose parent is stop it returns true and changes nothing; every finished run only reorders lists; a true result modifies nothing |
| Walk.UnloopAsWrittenSwapsOnce | STpointer.h:75-82 | when the as-written unloop returns false it made exactly one swap in its own target's list, of index 0 with the first index j >= 1 whose referrer does not loop to stop |
| Walk.UnloopAsWrittenNoEscape | STpointer.h:77-83 | when no referrer at index 1 or later of the target ever escapes, the as-written unloop never returns false |
| Walk.UnloopAsWrittenSpins | STpointer.h:83 | a primary handle whose parent is not stop and whose target has no escaping referrer makes unloop call itself on the same handle, so no fuel is enough |
| Walk.Unloop | STpointer.h:75-84 | corrected unloop: every finished run only reorders lists; true modifies nothing and is reported only when no referrer at index 1 or later of the target escapes; a handle whose container is stop and whose target has no escaping referrer answers true |
| Walk.UnloopStopsAtRoot | STpointer.h:75-84 | corrected unloop, root case: at a handle without a container whose target's referrers at index 1 or later all loop to stop within the fuel given, it answers keep and changes nothing, where line 83 would recurse |
| Walk.UnloopFinishes | STpointer.h:75-84 | the corrected unloop finishes within f + d steps whenever, at each handle of its climb, every referrer at index 1 or later of that handle's target answers loopsTo(stop) within f steps, and the climb reaches stop or a handle without a container within d containers; other handles of the arena are not asked about |
| Walk.UnloopSwapsAtMostOnce | STpointer.h:75-84 | when the corrected unloop returns false it has either changed nothing or made one swap in some node's list that promotes a referrer that does not loop to stop |
| Pointer.Empty | STpointer.h:89-92 | the default constructor adds a handle with null target and null parent and touches no list |
| Pointer.Create | STpointer.h:96-103 | the create constructor with create set allocates a fresh node whose list is exactly [this], so the handle is primary; with create unset the handle is empty; the parent is null either way |
| Pointer.Wrap | STpointer.h:106-110 | wrapping an object appends the handle to its list with a null parent, so the handle is primary iff the list was empty |
| Pointer.Copy | STpointer.h:112-116 | copying appends the new handle at the end of the source's target's list with a null parent, so the copy is secondary when the list already had a primary, and the source keeps its role |
| Pointer.WrapKeepsWalkable | STpointer.h:106-110 | registration keeps every entry pointing back at its node and every walked pointer resolvable |
| Pointer.SetParent | STpointer.h:165-167 | setParent changes only the handle's parent |
| Pointer.SetParentKeepsWalkable | STpointer.h:165-167 | making an object that has a primary the container of a handle keeps every walked pointer resolvable |
| Pointer.Assign | STpointer.h:130-137 | same target on both sides, or an empty handle, changes nothing; a null source removes one copy of the handle from its target's list; rebinding points the handle at the new target and leaves it last in the new list |
| Pointer.RebindRegistersOnceAtEnd | STpointer.h:133-137 | after rebinding to a list without duplicates, the handle occurs exactly once in the new target's list, at the end, after the old entries in order |
| Pointer.RebindLeavesStaleEntry | STpointer.h:135-137 | rebinding a registered handle leaves it listed by its old target, so the lists no longer all point back |
| Pointer.DetachedReleases | STpointer.h:169-177 | releasing a secondary handle deletes nothing and only deregisters it; releasing the only referrer deletes the target; otherwise the repair starts from a well-formed arena with a primary |
| Pointer.Delete | STpointer.h:175 | delete frees the object and nothing else: no referrer list and no handle changes, so handles that still point at it dangle; the freed node stays in the arena, so whether the arena is walkable and registered is unchanged |
| Pointer.Clear | STpointer.h:185-186 | the reset at the end of unset empties the handle, keeps its container and every other handle and list, so its isTree answer is false; no list changes, so an entry of the handle in its old target's list stays where it was |
| Pointer.Settle | STpointer.h:180-186 | the old target is deleted exactly when unloop answers true and nothing is deleted on false; the lists are unloop's, so they are only reordered, and the handle is cleared |
| Pointer.RepairAsWritten | STpointer.h:178-184 | the repair branch as written clears the handle, only reorders lists and can delete nothing but the old target |
| Pointer.Repair | STpointer.h:178-184 | the corrected repair branch keeps the same guarantees |
| Pointer.UnsetAsWritten | STpointer.h:169-187 | unset as written: an empty handle changes nothing; otherwise the target is cleared, one copy of the handle leaves the old list, other lists are only reordered, only the old target can be deleted, a secondary handle deletes nothing, the only referrer deletes its target; it finishes whenever no repair is needed |
| Pointer.Unset | STpointer.h:169-187 | corrected unset keeps every one of those guarantees |
| Pointer.HandoverToRootAsWrittenSpins | STpointer.h:178-183 | as written, unsetting a primary root whose target has exactly one other referrer, itself a root, never finishes |
| Pointer.HandoverToRootKeeps | STpointer.h:178-183 | corrected, unsetting a primary root whose next referrer is a root deletes and reorders nothing: that referrer becomes primary |
| Pointer.SelfHeldAsWrittenKeeps | STpointer.h:179 | as written, unsetting a primary root whose next referrer is a field of the target itself never deletes the target |
| Pointer.SelfHeldCollected | STpointer.h:179-180 | corrected, the target is deleted when its own field is its only other referrer |
| Pointer.ReleasedUnlinks | STpointer.h:169-172 | after unset of a handle registered at most once, its target is null and it is no longer in the old target's list |
| Pointer.ReleasedIsFinal | STpointer.h:169-170 | unset is idempotent: after a release the handle is empty, so unsetting it again, in either reading, returns at line 170 and changes nothing |
| Pointer.DestroyAsWritten | STpointer.h:148-151 | the destructor as written removes the handle, finishes exactly when the as-written unset does and then has its lists, deletions and release guarantees, and with a null target leaves every list and the deleted set alone |
| Pointer.Destroy | STpointer.h:148-151 | the destructor over the corrected unset gives the same guarantees |
| Scenarios.TwoRootsSpinAsWritten | STpointer.h:83 | resetting the first of two root handles on one object never finishes as written, with any fuel |
| Scenarios.TwoRootsKeepCorrected | STpointer.h:178-181 | the corrected unset keeps that object, with the other root as its only referrer |
| Scenarios.SelfLoopLeaksAsWritten | STpointer.h:179 | resetting the root of an object that holds itself through its own field leaves it undeleted as written |
| Scenarios.SelfLoopCollectedCorrected | STpointer.h:179-180 | the corrected unset deletes that object |
| Scenarios.MutualCycleLeaksAsWritten | STpointer.h:179 | resetting the root of a two-object cycle deletes nothing as written |
| Scenarios.MutualCycleCollectedCorrected | STpointer.h:179-180 | the corrected unset deletes the rooted object of the cycle and leaves both referrer lists as deregistration left them |
| Scenarios.RootedCycleStopsTooEarlyAsWritten | STpointer.h:76-77 | as written, unloop answers true at a handle whose container is stop even though another referrer of its target is a root |
| Scenarios.RootedCycleKeptCorrected | STpointer.h:75-84 | corrected, unsetting the root of a cycle that a second root also reaches promotes that root and deletes nothing |
| Scenarios.FieldReleaseDeletesHeldAsWritten | STpointer.h:76 | as written, resetting a field that is the primary of an object also held by a root deletes that object while the root still points at it |
| Scenarios.FieldReleaseKeptCorrected | STpointer.h:75-84 | corrected, the same reset promotes a root referrer of the container and deletes nothing |
| Scenarios.LoneContainerDeletesHeldCorrected | STpointer.h:183-184 | without a second root on the container, the corrected unset, whose container branch is as written, still deletes the object that a root points at |
| Scenarios.AssignIsNotResetThenRegister | STpointer.h:130-142 | for a handle whose container is held by a root, lines 130-137 leave the handle in the old target's list and delete nothing, and the loopsTo question at line 142 answers false so the assignment returns; a reset followed by a registration with the new target instead empties that list and deletes the old target |
| Scenarios.DeletedTargetIsDeletedAgain | STpointer.h:169-175 | a handle whose target was already deleted is still unset: the target is deleted again at line 175 and the deleted set stays as it was, so the model does not show the double free |
| Scenarios.LoopsToCanDiverge | STpointer.h:68-72 | on a cycle of primaries that does not pass through the sought node, loopsTo recurses for ever |

## Left out

- Fuel: `loopsTo` and `unloop` recurse with no bound in the source, and `unset` and the destructor inherit that. The model answers `Diverged` when fuel runs out, so it proves nothing about runs longer than the fuel given.
- Undefined behaviour is modelled as preconditions, not as behaviour: `[0]` on an empty list, and a null `parent` or a target or parent id that the arena does not hold.
- Use after free is not modelled. A deleted node stays in the arena with its list, and no predicate mentions the deleted set. A handle that still targets a deleted node can be read and unset, and deleting that node again leaves the deleted set as it was, so a double free is not visible in the model (`DeletedTargetIsDeletedAgain`).
- The `NEW` compile switch and its macro (STpointer.h:15-21) are not modelled. The create constructor is modelled as allocate-then-register (`Create`), with the fresh node id as a parameter.
- Allocation is left out: node and handle ids are parameters chosen by the caller.
- The `this == nullptr` and `&other == nullptr` branch of `operator=` (lines 119-129) is undefined behaviour and is not modelled. Line 122 dereferences a null pointer.
- The collection tail of `operator=` (lines 138-143) is not modelled. It dereferences `parent` unconditionally.
- The accessors `get`, `operator->` and `operator*` (lines 153-163) are only casts and are not modelled.
- Real memory reclamation is not modelled: `delete` adds the node to the deleted set. Destroying an object's own handle fields, the cascade through subclass destructors, is not modelled either. In the program, `delete pointer` (lines 175, 180 and 184) runs the deleted object's field destructors, which deregister more entries and can delete more objects. So `Released`'s "only the old target can be deleted" and "other lists are only reordered" describe one level of `unset`, and hold only because that cascade is left out.
- Pointer.Repair: the container branch (lines 183-184) is kept as written apart from the corrected `unloop`. It asks about the container rather than the target, and its intent cannot be read off the code, so no claim is made that the corrected unset frees exactly the unreachable objects. For example, in the `FieldRelease` graph without root R2 (`LoneContainerDeletesHeldCorrected`), the corrected unset still deletes T while root R3 points at it, because line 183 asks whether the container P loops to itself and line 184 then deletes T.
- Walk.UnloopAsWritten: stated only for arenas where every listed handle points back at its node (`Registered`) and every container has a primary (`Walkable`). A field rebind through `operator=` leaves an arena outside that domain.
- Walk.UnloopAsWrittenSwapsOnce: stated only for arenas where every listed handle points back at its node. With a stale entry at index 0, line 83 recurses into another node's list, which the model does not follow. A field rebind through `operator=` leaves an arena outside that domain.
- Walk.Unloop: stated only for arenas where every listed handle points back at its node and every container has a primary. A field rebind through `operator=` leaves an arena outside that domain.
- Pointer.UnsetAsWritten: when a repair is needed, stated only for arenas where every listed handle points back at its node and every container has a primary. This holds even when the walk never reads the offending entry. A field rebind through `operator=` leaves an arena outside that domain.
- Pointer.Unset: the same domain restriction as `UnsetAsWritten`.
- Walk.UnloopFinishes: asks that every referrer at index 1 or later of each list on the climb answers, and that the whole climb ends. The loop at line 77 stops at the first escaping referrer, and unloop then does not climb, so an unloop whose later questions would not finish can still finish. That case is not covered.
- Walk.LoopsTo: asks the global `Walkable`, so every container of every handle in the arena must have a primary, not only the containers on its own climb (lines 69-71 read only those). An arena holding an object whose constructor has called `setParent(this)` on its fields before it is wrapped is outside that domain, though the program answers there. The same holds for `Walk.LoopsToIsAncestry`, `Walk.LoopsToFuelMono`, `Walk.FindEscape` and `Walk.FindEscapeFinishes`, which are stated over `LoopsTo`.
- Global no-leak, no-double-free and termination claims are not promised by the code, so they are not stated. `LoopsToCanDiverge` and `TwoRootsSpinAsWritten` show that termination fails.
- Pointer.Copy: does not model a null source object. Line 114 dereferences the source's pointer, so that case is a precondition.
- example.cpp is a demo program with console output and is not part of this model.

## Findings

| source | as written | input that shows it | evidently intended | confidence | as-written member | corrected member |
|---|---|---|---|---|---|---|
| STpointer.h:83 | when no referrer at index 1 or later escapes, `unloop` recurses on `pointer->referencesToThis[0]`, the primary of its own target. That is the handle itself whenever it is primary, so it calls itself for ever. | Two root handles h0 and h1 point at one object, h0 registered first. `h0.unset()` removes h0. Then h1 does not loop back, line 180 calls `h1->unloop(pointer)`, and h1 is the primary of its own target. | Climb to the primary referrer of the handle's container, and report "keep" at a handle without a container, so unloop finishes whenever the loopsTo questions it asks along its climb finish and the climb ends. | not executed; high | Walk.UnloopAsWrittenSpins | Walk.UnloopFinishes |
| STpointer.h:179 | `if (loopsTo(pointer)) goto reset` keeps the object exactly when its new primary's climb leads back into the object. That is the case where it is held only by itself. The test is the opposite of line 183's `if (!loopsTo(parent)) goto reset`. | Root handle R and the object's own field F both point at object X, R registered first. `R.unset()` leaves X undeleted although only X's own field holds it. | `if (!loopsTo(pointer)) goto reset`, then ask `unloop` and delete on true. | not executed; high | Pointer.SelfHeldAsWrittenKeeps | Pointer.SelfHeldCollected |
| STpointer.h:76 | `if (parent == stop) return true` answers before the loop at line 77 looks for an escaping referrer of the handle's target. | Object P holds itself through its field g and is also held by root R2, so P's list is [g, R2]. P's second field h is the primary of object T, and root R3 also points at T, so T's list is [h, R3]. `h.unset()` reaches line 183: g's climb loops to P, and line 184 calls `g->unloop(P)`. Line 76 answers true because g's container is P, so T is deleted while R3 still points at it. This input does not isolate line 76: without R2, the corrected unset also deletes T, through the container branch at lines 183-184, which is kept as written. The exhibit that isolates line 76 is `Scenarios.RootedCycleStopsTooEarlyAsWritten`. There the as-written unloop answers true at a handle whose container is stop, although a root referrer of its target escapes, and `Scenarios.RootedCycleKeptCorrected` keeps the object. | Search the target's referrers first and answer true only when none escapes. The corrected unloop then promotes R2 in P's list, and T is kept. | not executed; high | Scenarios.FieldReleaseDeletesHeldAsWritten | Scenarios.FieldReleaseKeptCorrected |

=== FILE: graph.dfy ===
/** The object graph that STpointer.h manages, as an arena: STnode objects
    and STpointer objects are named by ids instead of raw addresses, and
    `delete` adds a node to a set of deleted nodes. */
module Graph {

  /** Address of an STnode object. */
  type NodeId = nat

  /** Address of an STpointer object. */
  type HandleId = nat

  datatype Option<T> = None | Some(value: T)

  /** Outcome of a computation that follows pointers with no bound in the
      source: it finished within the fuel it was given, or it was still
      recursing when the fuel ran out. */
  datatype Run<T> = Done(value: T) | Diverged

  /** The two raw pointers of an STpointer: the object it refers to
      (`pointer`) and the object that holds it as a field (`parent`). */
  datatype Handle = Handle(target: Option<NodeId>, parent: Option<NodeId>)

  /** The heap: every node's referrer list (`referencesToThis`), every
      handle's two pointers, and the nodes deleted so far. A deleted node
      keeps its entry in `refs`, so ids are never reused. */
  datatype Arena = Arena(refs: map<NodeId, seq<HandleId>>, handles: map<HandleId, Handle>, deleted: set<NodeId>)

  /** Every raw pointer that loopsTo and unloop may follow resolves: referrer
      entries name existing handles, targets name existing nodes, and every
      container (`parent`) exists and has a referrer at index 0. */
  ghost predicate Walkable(a: Arena)
  {
    && (forall n, i :: n in a.refs && 0 <= i < |a.refs[n]| ==> a.refs[n][i] in a.handles)
    && (forall h :: h in a.handles && a.handles[h].target.Some? ==> a.handles[h].target.value in a.refs)
    && (forall h :: h in a.handles && a.handles[h].parent.Some? ==>
          a.handles[h].parent.value in a.refs && |a.refs[a.handles[h].parent.value]| > 0)
  }

  /** Every referrer entry points back: a handle listed by node n targets n. */
  ghost predicate Registered(a: Arena)
  {
    forall n, i :: n in a.refs && 0 <= i < |a.refs[n]| && a.refs[n][i] in a.handles ==>
      a.handles[a.refs[n][i]].target == Some(n)
  }

  /** A referrer list in which no handle occurs twice. */
  predicate NoDuplicates(s: seq<HandleId>)
  {
    forall i, j :: 0 <= i < j < |s| ==> s[i] != s[j]
  }

  /** b differs from a at most in the order of entries within referrer lists. */
  ghost predicate Reorders(a: Arena, b: Arena)
  {
    && b.handles == a.handles
    && b.deleted == a.deleted
    && b.refs.Keys == a.refs.Keys
    && forall n :: n in a.refs ==> multiset(b.refs[n]) == multiset(a.refs[n])
  }
}

=== FILE: node.dfy ===
/** STnode's referrer bookkeeping: the ordered list `referencesToThis`,
    appended to on registration and searched front to back on
    deregistration. */
module Node {
  import opened Graph

  /** Position of the first occurrence of h in s. */
  function FirstIndex(s: seq<HandleId>, h: HandleId): (i: nat)
    requires h in s
    ensures i < |s| && s[i] == h
    ensures forall j :: 0 <= j < i ==> s[j] != h
  {
    if s[0] == h then 0 else 1 + FirstIndex(s[1..], h)
  }

  /** The referrer list after removeReferenceToThis(h): one occurrence of h
      fewer, when there was one. */
  function RemoveFirst(s: seq<HandleId>, h: HandleId): (r: seq<HandleId>)
    ensures |r| == if h in s then |s| - 1 else |s|
  {
    if |s| == 0 then []
    else
      assert s == [s[0]] + s[1..];
      if s[0] == h then s[1..] else [s[0]] + RemoveFirst(s[1..], h)
  }

  /** Deregistration loses exactly one copy of h when there was one, and
      nothing else: the remaining entries are the old ones. */
  lemma {:induction false} RemoveFirstMultiset(s: seq<HandleId>, h: HandleId)
    ensures multiset(RemoveFirst(s, h)) == multiset(s) - multiset{h}
  {
    if |s| > 0 {
      assert s == [s[0]] + s[1..];
      if s[0] != h {
        RemoveFirstMultiset(s[1..], h);
      }
    }
  }

  /** RemoveFirst cuts out exactly the first occurrence and keeps every
      other entry in its order; an absent handle leaves the list as it is. */
  lemma RemoveFirstSplices(s: seq<HandleId>, h: HandleId)
    ensures h !in s ==> RemoveFirst(s, h) == s
    ensures h in s ==> RemoveFirst(s, h) == s[..FirstIndex(s, h)] + s[FirstIndex(s, h) + 1..]
  {
    if h in s {
      RemoveFirstAt(s, h, FirstIndex(s, h));
    } else {
      RemoveAbsent(s, h);
    }
  }

  lemma {:induction false} RemoveAbsent(s: seq<HandleId>, h: HandleId)
    requires h !in s
    ensures RemoveFirst(s, h) == s
  {
    if |s| > 0 {
      assert s == [s[0]] + s[1..];
      RemoveAbsent(s[1..], h);
    }
  }

  lemma {:induction false} RemoveFirstAt(s: seq<HandleId>, h: HandleId, i: nat)
    requires i < |s| && s[i] == h
    requires forall j :: 0 <= j < i ==> s[j] != h
    ensures RemoveFirst(s, h) == s[..i] + s[i + 1..]
  {
    if i > 0 {
      var t := s[1..];
      RemoveFirstAt(t, h, i - 1);
      assert s[..i] == [s[0]] + t[..i - 1];
      assert s[i + 1..] == t[i..];
    }
  }

  /** removeReferenceToThis's loop: scan from the front, erase at the first
      match and stop; fall off the end when the handle is absent. */
  method RemoveReference(s: seq<HandleId>, h: HandleId) returns (r: seq<HandleId>)
    ensures r == RemoveFirst(s, h)
    ensures h in s ==> r == s[..FirstIndex(s, h)] + s[FirstIndex(s, h) + 1..]
    ensures h !in s ==> r == s
  {
    RemoveFirstSplices(s, h);
    var i := 0;
    while i < |s|
      invariant 0 <= i <= |s|
      invariant forall j :: 0 <= j < i ==> s[j] != h
    {
      if s[i] == h {
        assert FirstIndex(s, h) == i;
        return s[..i] + s[i + 1..];
      }
      i := i + 1;
    }
    return s;
  }

  /** Registering a handle that is not yet listed and deregistering it again
      gives back the original list. */
  lemma RemoveUndoesAppend(s: seq<HandleId>, h: HandleId)
    requires h !in s
    ensures RemoveFirst(s + [h], h) == s
  {
    RemoveFirstSplices(s + [h], h);
    assert FirstIndex(s + [h], h) == |s|;
    assert (s + [h])[..|s|] == s;
  }

  /** In a list without duplicates, deregistration removes the handle
      completely and leaves a list without duplicates. */
  lemma {:induction false} RemoveFirstUnlinks(s: seq<HandleId>, h: HandleId)
    requires NoDuplicates(s)
    ensures h !in RemoveFirst(s, h)
    ensures NoDuplicates(RemoveFirst(s, h))
  {
    RemoveFirstSplices(s, h);
    if h in s {
      var i := FirstIndex(s, h);
      CutOmits(s, i);
      CutKeepsNoDuplicates(s, i);
    }
  }

  /** Cutting position i out of a list without duplicates leaves no copy of
      the entry that was there. */
  lemma CutOmits(s: seq<HandleId>, i: nat)
    requires NoDuplicates(s) && i < |s|
    ensures s[i] !in s[..i] + s[i + 1..]
  {
    var r := s[..i] + s[i + 1..];
    forall k | 0 <= k < |r|
      ensures r[k] != s[i]
    {
      if k >= i {
        assert r[k] == s[k + 1];
      }
    }
  }

  /** Cutting one position out of a list without duplicates leaves a list
      without duplicates. */
  lemma CutKeepsNoDuplicates(s: seq<HandleId>, i: nat)
    requires NoDuplicates(s) && i < |s|
    ensures NoDuplicates(s[..i] + s[i + 1..])
  {
    var r := s[..i] + s[i + 1..];
    forall p, q | 0 <= p < q < |r|
      ensures r[p] != r[q]
    {
      var p' := if p < i then p else p + 1;
      var q' := if q < i then q else q + 1;
      assert r[p] == s[p'] && r[q] == s[q'];
    }
  }

  /** std::swap of two positions of a referrer list. */
  function Swap(s: seq<HandleId>, i: nat, j: nat): (r: seq<HandleId>)
    requires i < |s| && j < |s|
    ensures |r| == |s| && r[i] == s[j] && r[j] == s[i]
    ensures forall k :: 0 <= k < |s| && k != i && k != j ==> r[k] == s[k]
    ensures multiset(r) == multiset(s)
  {
    s[i := s[j]][j := s[i]]
  }

  /** addReferenceToThis: append h to node n's referrer list. */
  function AddReference(a: Arena, n: NodeId, h: HandleId): (b: Arena)
    requires n in a.refs
    ensures b.handles == a.handles && b.deleted == a.deleted && b.refs.Keys == a.refs.Keys
    ensures forall m :: m in a.refs && m != n ==> b.refs[m] == a.refs[m]
    ensures |b.refs[n]| == |a.refs[n]| + 1 && b.refs[n][|a.refs[n]|] == h
    ensures forall i :: 0 <= i < |a.refs[n]| ==> b.refs[n][i] == a.refs[n][i]
  {
    a.(refs := a.refs[n := a.refs[n] + [h]])
  }

  /** removeReferenceToThis: node n forgets the first occurrence of h. */
  function Deregister(a: Arena, n: NodeId, h: HandleId): (b: Arena)
    requires n in a.refs
    ensures b.handles == a.handles && b.deleted == a.deleted && b.refs.Keys == a.refs.Keys
    ensures forall m :: m in a.refs && m != n ==> b.refs[m] == a.refs[m]
    ensures |b.refs[n]| == |a.refs[n]| - 1 <==> h in a.refs[n]
    ensures multiset(b.refs[n]) == multiset(a.refs[n]) - multiset{h}
  {
    RemoveFirstMultiset(a.refs[n], h);
    a.(refs := a.refs[n := RemoveFirst(a.refs[n], h)])
  }

  /** Deregistration only drops list entries, so every pointer that resolved
      still resolves as long as the shortened list keeps a first entry, and
      every remaining entry still points back. */
  lemma DeregisterKeepsWalkable(a: Arena, n: NodeId, h: HandleId)
    requires n in a.refs && Walkable(a) && Registered(a)
    requires |RemoveFirst(a.refs[n], h)| > 0
    ensures Walkable(Deregister(a, n, h)) && Registered(Deregister(a, n, h))
  {
    var b := Deregister(a, n, h);
    forall i | 0 <= i < |b.refs[n]|
      ensures b.refs[n][i] in a.handles && a.handles[b.refs[n][i]].target == Some(n)
    {
      var x := b.refs[n][i];
      assert x in multiset(b.refs[n]);
      assert x in multiset(a.refs[n]);
      var j :| 0 <= j < |a.refs[n]| && a.refs[n][j] == x;
    }
  }
}

=== FILE: pointer.dfy ===
/** STpointer's public operations: the constructors, setParent, the
    re-registration part of operator=, unset and the destructor. */
module Pointer {
  import opened Graph
  import opened Node
  import opened Walk

  /** STpointer(): a new handle with a null target and a null parent. */
  function Empty(a: Arena, h: HandleId): (b: Arena)
    requires h !in a.handles
    ensures b.refs == a.refs && b.deleted == a.deleted
    ensures b.handles.Keys == a.handles.Keys + {h}
    ensures forall g :: g in a.handles ==> b.handles[g] == a.handles[g]
    ensures b.handles[h].target.None? && b.handles[h].parent.None?
    ensures PrimaryReadable(b, h) && !IsTree(b, h)
  {
    a.(handles := a.handles[h := Handle(None, None)])
  }

  /** STpointer(value): point at node n, register at the end of n's
      referrer list, and have no container. */
  function Wrap(a: Arena, h: HandleId, n: NodeId): (b: Arena)
    requires h !in a.handles && n in a.refs
    ensures b.deleted == a.deleted && b.refs.Keys == a.refs.Keys
    ensures b.handles.Keys == a.handles.Keys + {h}
    ensures forall g :: g in a.handles ==> b.handles[g] == a.handles[g]
    ensures b.handles[h] == Handle(Some(n), None)
    ensures forall m :: m in a.refs && m != n ==> b.refs[m] == a.refs[m]
    ensures |b.refs[n]| == |a.refs[n]| + 1 && b.refs[n][|a.refs[n]|] == h
    ensures forall i :: 0 <= i < |a.refs[n]| ==> b.refs[n][i] == a.refs[n][i]
    ensures PrimaryReadable(b, h)
    ensures h !in a.refs[n] ==> (IsTree(b, h) <==> |a.refs[n]| == 0)
  {
    AddReference(a.(handles := a.handles[h := Handle(Some(n), None)]), n, h)
  }

  /** STpointer(const STpointer& other): point where other points and
      register at the end, so a copy of a registered handle is a secondary
      edge and the primary of the node stays what it was. */
  function Copy(a: Arena, h: HandleId, src: HandleId): (b: Arena)
    requires h !in a.handles && src in a.handles
    requires a.handles[src].target.Some? && a.handles[src].target.value in a.refs
    ensures b.deleted == a.deleted && b.refs.Keys == a.refs.Keys
    ensures b.handles.Keys == a.handles.Keys + {h}
    ensures forall g :: g in a.handles ==> b.handles[g] == a.handles[g]
    ensures b.handles[h] == Handle(a.handles[src].target, None)
    ensures var n := a.handles[src].target.value;
      && |b.refs[n]| == |a.refs[n]| + 1 && b.refs[n][|a.refs[n]|] == h
      && (forall i :: 0 <= i < |a.refs[n]| ==> b.refs[n][i] == a.refs[n][i])
      && (|a.refs[n]| > 0 && h !in a.refs[n] ==> !IsTree(b, h))
      && (|a.refs[n]| > 0 ==> IsTree(b, src) == IsTree(a, src))
  {
    Wrap(a, h, a.handles[src].target.value)
  }

  /** STpointer(NEW, args...): with create, a fresh node n is allocated
      and wrapped, so h is its only referrer and its primary; without
      create, the handle is empty. */
  function Create(a: Arena, h: HandleId, n: NodeId, create: bool): (b: Arena)
    requires h !in a.handles
    requires create ==> n !in a.refs
    ensures b.deleted == a.deleted
    ensures b.handles.Keys == a.handles.Keys + {h}
    ensures forall g :: g in a.handles ==> b.handles[g] == a.handles[g]
    ensures forall m :: m in a.refs ==> m in b.refs && b.refs[m] == a.refs[m]
    ensures b.handles[h].parent.None?
    ensures create ==> b.handles[h].target == Some(n) && b.refs.Keys == a.refs.Keys + {n} && b.refs[n] == [h] && IsTree(b, h)
    ensures !create ==> b.handles[h].target.None? && b.refs == a.refs
  {
    if create then Wrap(a.(refs := a.refs[n := []]), h, n) else Empty(a, h)
  }

  /** setParent: record the object that holds h as a field. */
  function SetParent(a: Arena, h: HandleId, p: Option<NodeId>): (b: Arena)
    requires h in a.handles
    ensures b.refs == a.refs && b.deleted == a.deleted && b.handles.Keys == a.handles.Keys
    ensures b.handles[h] == Handle(a.handles[h].target, p)
    ensures forall g :: g in a.handles && g != h ==> b.handles[g] == a.handles[g]
  {
    a.(handles := a.handles[h := a.handles[h].(parent := p)])
  }

  /** Wrapping keeps the walk's pointers resolvable and every referrer
      entry pointing back. */
  lemma WrapKeepsWalkable(a: Arena, h: HandleId, n: NodeId)
    requires Walkable(a) && Registered(a) && h !in a.handles && n in a.refs
    ensures Walkable(Wrap(a, h, n)) && Registered(Wrap(a, h, n))
  {
    var b := Wrap(a, h, n);
    forall m, i | m in b.refs && 0 <= i < |b.refs[m]|
      ensures b.refs[m][i] in b.handles && b.handles[b.refs[m][i]].target == Some(m)
    {
      if m == n && i == |a.refs[n]| {
      } else {
        assert b.refs[m][i] == a.refs[m][i];
      }
    }
  }

  /** Making a node that has a primary the container of a handle keeps the
      walk's pointers resolvable. */
  lemma SetParentKeepsWalkable(a: Arena, h: HandleId, p: NodeId)
    requires Walkable(a) && Registered(a) && h in a.handles
    requires p in a.refs && |a.refs[p]| > 0
    ensures Walkable(SetParent(a, h, Some(p))) && Registered(SetParent(a, h, Some(p)))
  {
    var b := SetParent(a, h, Some(p));
    forall g | g in b.handles && b.handles[g].parent.Some?
      ensures b.handles[g].parent.value in b.refs && |b.refs[b.handles[g].parent.value]| > 0
    {
      if g != h {
        assert b.handles[g] == a.handles[g];
      }
    }
  }

  /** What operator= needs of its operands on the lines modelled: the old
      target's list is read at index 0 by isTree (line 134) and the new
      target's list is edited. */
  ghost predicate AssignReady(a: Arena, h: HandleId, src: HandleId)
  {
    && h in a.handles && src in a.handles
    && (a.handles[h].target != a.handles[src].target && a.handles[h].target.Some? ==>
          && a.handles[h].target.value in a.refs
          && (a.handles[src].target.Some? ==>
                |a.refs[a.handles[h].target.value]| > 0 && a.handles[src].target.value in a.refs))
  }

  /** operator=(other), lines 130-137, as written: the same target is a
      no-op; a null source deregisters h but leaves its pointer; a non-null
      h is pointed at the new target first and then removed from and
      re-added to the new target's list, so the old list is never touched;
      an empty h with a non-null source stays empty. */
  function Assign(a: Arena, h: HandleId, src: HandleId): (b: Arena)
    requires AssignReady(a, h, src)
    ensures b.deleted == a.deleted && b.refs.Keys == a.refs.Keys && b.handles.Keys == a.handles.Keys
    ensures a.handles[h].target == a.handles[src].target ==> b == a
    ensures a.handles[h].target.None? ==> b == a
    ensures a.handles[h].target.Some? && a.handles[src].target.None? ==>
      var p := a.handles[h].target.value;
      && b.handles == a.handles
      && multiset(b.refs[p]) == multiset(a.refs[p]) - multiset{h}
      && forall m :: m in a.refs && m != p ==> b.refs[m] == a.refs[m]
    ensures a.handles[h].target.Some? && a.handles[src].target.Some? && a.handles[h].target != a.handles[src].target ==>
      var q := a.handles[src].target.value;
      && b.handles == a.handles[h := a.handles[h].(target := Some(q))]
      && (forall m :: m in a.refs && m != q ==> b.refs[m] == a.refs[m])
      && |b.refs[q]| > 0 && b.refs[q][|b.refs[q]| - 1] == h
      && multiset(b.refs[q]) == multiset(a.refs[q]) - multiset{h} + multiset{h}
  {
    var p := a.handles[h].target;
    var q := a.handles[src].target;
    if p == q then a
    else if q.None? then Deregister(a, p.value, h)
    else if p.Some? then
      var moved := a.(handles := a.handles[h := a.handles[h].(target := q)]);
      AddReference(Deregister(moved, q.value, h), q.value, h)
    else a
  }

  /** Rebinding a non-empty handle to another non-null target leaves it
      exactly once in the new target's list, at the end, with every other
      entry in its old order, when that list had no duplicates. */
  lemma RebindRegistersOnceAtEnd(a: Arena, h: HandleId, src: HandleId)
    requires AssignReady(a, h, src)
    requires a.handles[h].target.Some? && a.handles[src].target.Some?
    requires a.handles[h].target != a.handles[src].target
    requires NoDuplicates(a.refs[a.handles[src].target.value])
    ensures var q := a.handles[src].target.value;
      var s := Assign(a, h, src).refs[q];
      && s == RemoveFirst(a.refs[q], h) + [h]
      && (forall i :: 0 <= i < |s| - 1 ==> s[i] != h)
      && NoDuplicates(s)
  {
    var q := a.handles[src].target.value;
    RemoveFirstUnlinks(a.refs[q], h);
    var r := RemoveFirst(a.refs[q], h);
    var s := Assign(a, h, src).refs[q];
    assert s == r + [h];
    forall i | 0 <= i < |s| - 1
      ensures s[i] != h
    {
      assert s[i] == r[i];
    }
  }

  /** Rebinding leaves a stale entry behind: a handle registered with its
      old target is still listed there while it points elsewhere, so the
      referrer lists no longer all point back. */
  lemma RebindLeavesStaleEntry(a: Arena, h: HandleId, src: HandleId)
    requires AssignReady(a, h, src)
    requires a.handles[h].target.Some? && a.handles[src].target.Some?
    requires a.handles[h].target != a.handles[src].target
    requires h in a.refs[a.handles[h].target.value]
    ensures h in Assign(a, h, src).refs[a.handles[h].target.value]
    ensures !Registered(Assign(a, h, src))
  {
    var p := a.handles[h].target.value;
    var b := Assign(a, h, src);
    var i := FirstIndex(a.refs[p], h);
    assert b.refs[p][i] == h;
  }

  /** Whether unset has to repair the tree: h is the primary of its target
      and other referrers remain after it is removed. */
  ghost predicate UnsetReady(a: Arena, h: HandleId)
  {
    && PrimaryReadable(a, h)
    && (IsTree(a, h) && |a.refs[a.handles[h].target.value]| > 1 ==> Walkable(a) && Registered(a))
  }

  /** `delete pointer`: the node is freed; no referrer list and no handle
      is touched, so handles that still point at it dangle. The node keeps
      its entry in `refs`, so the arena stays exactly as walkable as it was
      and a handle that still targets the node can still be read. */
  function Delete(a: Arena, n: NodeId): (b: Arena)
    ensures b.refs == a.refs && b.handles == a.handles
    ensures n in b.deleted && a.deleted <= b.deleted
    ensures forall m :: m in b.deleted && m != n ==> m in a.deleted
    ensures Walkable(b) == Walkable(a) && Registered(b) == Registered(a)
  {
    a.(deleted := a.deleted + {n})
  }

  /** `this->pointer = nullptr` at the end of unset: h becomes an empty
      handle that keeps its container, so its isTree answer is false; no
      list changes. */
  function Clear(a: Arena, h: HandleId): (b: Arena)
    requires h in a.handles
    ensures b.refs == a.refs && b.deleted == a.deleted && b.handles.Keys == a.handles.Keys
    ensures b.handles[h].target.None? && b.handles[h].parent == a.handles[h].parent
    ensures forall g :: g in a.handles && g != h ==> b.handles[g] == a.handles[g]
    ensures PrimaryReadable(b, h) && !IsTree(b, h)
  {
    a.(handles := a.handles[h := a.handles[h].(target := None)])
  }

  /** b is a1 after the repair step of unset for handle h and its old
      target t: h is cleared, lists are only reordered, and at most t has
      been deleted. */
  ghost predicate Repaired(a1: Arena, h: HandleId, t: NodeId, b: Arena)
    requires h in a1.handles
  {
    && b.handles == a1.handles[h := a1.handles[h].(target := None)]
    && b.refs.Keys == a1.refs.Keys
    && (forall m :: m in a1.refs ==> multiset(b.refs[m]) == multiset(a1.refs[m]))
    && a1.deleted <= b.deleted <= a1.deleted + {t}
  }

  /** The tail of unset after unloop: delete the old target t when unloop
      says so, then clear h. */
  function Settle(a1: Arena, u: Run<Unlooped>, t: NodeId, h: HandleId): (r: Run<Arena>)
    requires h in a1.handles
    requires u.Done? ==> Reorders(a1, u.value.arena)
    ensures u.Done? == r.Done?
    ensures r.Done? ==> Repaired(a1, h, t, r.value)
    ensures u.Done? ==>
      && r.value.refs == u.value.arena.refs
      && r.value.deleted == (if u.value.collect then u.value.arena.deleted + {t} else u.value.arena.deleted)
  {
    match u
    case Diverged => Diverged
    case Done(Unlooped(collect, b)) => Done(Clear(if collect then Delete(b, t) else b, h))
  }

  /** What the repair step needs: after h left t's list, the list still
      has a primary and the walk's pointers resolve. */
  ghost predicate RepairReady(a1: Arena, h: HandleId, t: NodeId)
  {
    && Walkable(a1) && Registered(a1)
    && h in a1.handles && t in a1.refs && |a1.refs[t]| > 0
  }

  /** Lines 178-184 as written: with no container, keep the object when the
      new primary's climb returns to it and otherwise ask unloop; with a
      container, ask whether the container's primary climbs back to the
      container. */
  function RepairAsWritten(a1: Arena, h: HandleId, t: NodeId, fuel: nat): (r: Run<Arena>)
    requires RepairReady(a1, h, t)
    ensures r.Done? ==> Repaired(a1, h, t, r.value)
  {
    match a1.handles[h].parent
    case None =>
      var g := a1.refs[t][0];
      (match LoopsTo(a1, g, t, fuel)
       case Diverged => Diverged
       case Done(loops) =>
         if loops then Done(Clear(a1, h)) else Settle(a1, UnloopAsWritten(a1, g, t, fuel), t, h))
    case Some(p) =>
      var g := a1.refs[p][0];
      match LoopsTo(a1, g, p, fuel)
      case Diverged => Diverged
      case Done(loops) =>
        if !loops then Done(Clear(a1, h)) else Settle(a1, UnloopAsWritten(a1, g, p, fuel), t, h)
  }

  /** Lines 178-184 as intended: with no container, keep the object when the
      new primary's climb does not return to it, and otherwise let the
      corrected unloop decide; the container case is as written, with the
      corrected unloop. */
  function Repair(a1: Arena, h: HandleId, t: NodeId, fuel: nat): (r: Run<Arena>)
    requires RepairReady(a1, h, t)
    ensures r.Done? ==> Repaired(a1, h, t, r.value)
  {
    match a1.handles[h].parent
    case None =>
      var g := a1.refs[t][0];
      (match LoopsTo(a1, g, t, fuel)
       case Diverged => Diverged
       case Done(loops) =>
         if !loops then Done(Clear(a1, h)) else Settle(a1, Unloop(a1, g, t, fuel), t, h))
    case Some(p) =>
      var g := a1.refs[p][0];
      match LoopsTo(a1, g, p, fuel)
      case Diverged => Diverged
      case Done(loops) =>
        if !loops then Done(Clear(a1, h)) else Settle(a1, Unloop(a1, g, p, fuel), t, h)
  }

  /** What every finished unset guarantees: h's target is cleared and no
      other handle changes; h loses one registration with its old target;
      every list is otherwise only reordered; only the old target can be
      deleted; a secondary handle deletes nothing and swaps nothing; a
      primary that was the only referrer deletes its target. */
  ghost predicate Released(a: Arena, h: HandleId, b: Arena)
    requires UnsetReady(a, h)
  {
    && b.handles == a.handles[h := a.handles[h].(target := None)]
    && b.refs.Keys == a.refs.Keys
    && match a.handles[h].target
       case None => b == a
       case Some(t) =>
         && multiset(b.refs[t]) == multiset(a.refs[t]) - multiset{h}
         && (forall m :: m in a.refs && m != t ==> multiset(b.refs[m]) == multiset(a.refs[m]))
         && a.deleted <= b.deleted <= a.deleted + {t}
         && (!IsTree(a, h) ==> b.refs == a.refs[t := RemoveFirst(a.refs[t], h)] && b.deleted == a.deleted)
         && (a.refs[t] == [h] ==> b.deleted == a.deleted + {t})
  }

  /** A repair after a primary handle left a list that still has other
      referrers completes a release. */
  lemma RepairedReleases(a: Arena, h: HandleId, t: NodeId, b: Arena)
    requires UnsetReady(a, h) && a.handles[h].target == Some(t)
    requires IsTree(a, h) && |a.refs[t]| > 1
    requires Repaired(Deregister(a, t, h), h, t, b)
    ensures Released(a, h, b)
  {
  }

  /** Deregister h from its target t and decide what happens to t: the
      steps of unset that both readings of lines 178-184 share. */
  lemma DetachedReleases(a: Arena, h: HandleId, t: NodeId)
    requires UnsetReady(a, h) && a.handles[h].target == Some(t)
    ensures !IsTree(a, h) ==> Released(a, h, Clear(Deregister(a, t, h), h))
    ensures IsTree(a, h) && |a.refs[t]| == 1 ==>
      |Deregister(a, t, h).refs[t]| == 0 && Released(a, h, Clear(Delete(Deregister(a, t, h), t), h))
    ensures IsTree(a, h) && |a.refs[t]| > 1 ==>
      |Deregister(a, t, h).refs[t]| > 0 && RepairReady(Deregister(a, t, h), h, t)
  {
    if IsTree(a, h) {
      assert a.refs[t][0] == h;
      if |a.refs[t]| == 1 {
        assert a.refs[t] == [h];
      } else {
        DeregisterKeepsWalkable(a, t, h);
      }
    }
  }

  /** unset, lines 169-187, as written. */
  function UnsetAsWritten(a: Arena, h: HandleId, fuel: nat): (r: Run<Arena>)
    requires UnsetReady(a, h)
    ensures r.Done? ==> Released(a, h, r.value)
    ensures !IsTree(a, h) || |a.refs[a.handles[h].target.value]| == 1 ==> r.Done?
  {
    match a.handles[h].target
    case None => Done(a)
    case Some(t) =>
      var a1 := Deregister(a, t, h);
      DetachedReleases(a, h, t);
      if !IsTree(a, h) then Done(Clear(a1, h))
      else if |a1.refs[t]| == 0 then Done(Clear(Delete(a1, t), h))
      else
        var r := RepairAsWritten(a1, h, t, fuel);
        if r.Done? then RepairedReleases(a, h, t, r.value); r else r
  }

  /** unset as intended: line 179 and unloop (lines 76 and 83) corrected. */
  function Unset(a: Arena, h: HandleId, fuel: nat): (r: Run<Arena>)
    requires UnsetReady(a, h)
    ensures r.Done? ==> Released(a, h, r.value)
    ensures !IsTree(a, h) || |a.refs[a.handles[h].target.value]| == 1 ==> r.Done?
  {
    match a.handles[h].target
    case None => Done(a)
    case Some(t) =>
      var a1 := Deregister(a, t, h);
      DetachedReleases(a, h, t);
      if !IsTree(a, h) then Done(Clear(a1, h))
      else if |a1.refs[t]| == 0 then Done(Clear(Delete(a1, t), h))
      else
        var r := Repair(a1, h, t, fuel);
        if r.Done? then RepairedReleases(a, h, t, r.value); r else r
  }

  /** Unset a primary root handle h whose target t has exactly one other
      referrer, also a root. As written, line 179 sends that root to
      unloop, and line 83 has it call itself for ever. */
  lemma {:induction false} HandoverToRootAsWrittenSpins(a: Arena, h: HandleId, fuel: nat)
    requires UnsetReady(a, h) && a.handles[h].target.Some? && IsTree(a, h)
    requires a.handles[h].parent.None?
    requires var s := a.refs[a.handles[h].target.value];
      |s| == 2 && a.handles[s[1]].parent.None?
    ensures UnsetAsWritten(a, h, fuel) == Diverged
  {
    var t := a.handles[h].target.value;
    var s := a.refs[t];
    var a1 := Deregister(a, t, h);
    assert s == [s[0]] + s[1..];
    assert a1.refs[t] == [s[1]];
    DetachedReleases(a, h, t);
    assert LoopsTo(a1, s[1], t, fuel) == Done(false);
    UnloopAsWrittenSpins(a1, s[1], t, fuel);
    assert RepairAsWritten(a1, h, t, fuel) == Diverged;
  }

  /** The corrected unset hands a primary root's target over to the next
      referrer when that one is a root: nothing is deleted or reordered,
      only h leaves the list and is cleared. */
  lemma {:induction false} HandoverToRootKeeps(a: Arena, h: HandleId, fuel: nat)
    requires UnsetReady(a, h) && a.handles[h].target.Some? && IsTree(a, h)
    requires a.handles[h].parent.None?
    requires var s := a.refs[a.handles[h].target.value];
      |s| > 1 && a.handles[s[1]].parent.None?
    ensures var t := a.handles[h].target.value;
      && Unset(a, h, fuel) == Done(Clear(Deregister(a, t, h), h))
      && Deregister(a, t, h).refs[t] == a.refs[t][1..]
  {
    var t := a.handles[h].target.value;
    var s := a.refs[t];
    var a1 := Deregister(a, t, h);
    assert s == [s[0]] + s[1..];
    assert a1.refs[t] == s[1..];
    DetachedReleases(a, h, t);
    assert LoopsTo(a1, s[1], t, fuel) == Done(false);
    assert Repair(a1, h, t, fuel) == Done(Clear(a1, h));
  }

  /** Unset a primary root handle h when the next referrer of its target t
      is a field of t itself. As written, line 179 keeps t without asking
      unloop, whatever else refers to t. */
  lemma {:induction false} SelfHeldAsWrittenKeeps(a: Arena, h: HandleId, fuel: nat)
    requires UnsetReady(a, h) && a.handles[h].target.Some? && IsTree(a, h)
    requires a.handles[h].parent.None?
    requires var s := a.refs[a.handles[h].target.value];
      |s| > 1 && a.handles[s[1]].parent == a.handles[h].target
    ensures var t := a.handles[h].target.value;
      UnsetAsWritten(a, h, fuel) == Done(Clear(Deregister(a, t, h), h))
  {
    var t := a.handles[h].target.value;
    var s := a.refs[t];
    var a1 := Deregister(a, t, h);
    assert s == [s[0]] + s[1..];
    assert a1.refs[t] == s[1..];
    DetachedReleases(a, h, t);
    assert LoopsTo(a1, s[1], t, fuel) == Done(true);
    assert RepairAsWritten(a1, h, t, fuel) == Done(Clear(a1, h));
  }

  /** The corrected unset deletes a target whose only other referrer is its
      own field. */
  lemma {:induction false} SelfHeldCollected(a: Arena, h: HandleId, fuel: nat)
    requires UnsetReady(a, h) && a.handles[h].target.Some? && IsTree(a, h)
    requires a.handles[h].parent.None?
    requires var s := a.refs[a.handles[h].target.value];
      |s| == 2 && a.handles[s[1]].parent == a.handles[h].target
    ensures var t := a.handles[h].target.value;
      Unset(a, h, fuel) == Done(Clear(Delete(Deregister(a, t, h), t), h))
  {
    var t := a.handles[h].target.value;
    var s := a.refs[t];
    var a1 := Deregister(a, t, h);
    assert s == [s[0]] + s[1..];
    assert a1.refs[t] == [s[1]];
    DetachedReleases(a, h, t);
    assert LoopsTo(a1, s[1], t, fuel) == Done(true);
    assert Unloop(a1, s[1], t, fuel) == Done(Unlooped(true, a1));
    assert Repair(a1, h, t, fuel) == Done(Clear(Delete(a1, t), h));
  }

  /** After unset the handle is gone from its old target's list when it was
      registered there at most once. */
  lemma ReleasedUnlinks(a: Arena, h: HandleId, b: Arena)
    requires UnsetReady(a, h) && Released(a, h, b)
    requires a.handles[h].target.Some? && NoDuplicates(a.refs[a.handles[h].target.value])
    ensures h !in b.refs[a.handles[h].target.value]
    ensures b.handles[h].target.None?
  {
    var t := a.handles[h].target.value;
    RemoveFirstUnlinks(a.refs[t], h);
    RemoveFirstMultiset(a.refs[t], h);
    assert multiset(b.refs[t]) == multiset(RemoveFirst(a.refs[t], h));
    assert h !in multiset(b.refs[t]);
  }

  /** Unset is idempotent: once h has been released, unsetting it again,
      in either reading, changes nothing (line 170 returns at once). */
  lemma ReleasedIsFinal(a: Arena, h: HandleId, b: Arena, fuel: nat)
    requires UnsetReady(a, h) && Released(a, h, b)
    ensures UnsetReady(b, h)
    ensures UnsetAsWritten(b, h, fuel) == Done(b) && Unset(b, h, fuel) == Done(b)
  {
  }

  /** Removing a handle from the map forgets any update made to it. */
  lemma DropForgetsUpdate(m: map<HandleId, Handle>, h: HandleId, v: Handle)
    ensures m[h := v] - {h} == m - {h}
  {
  }

  /** ~STpointer as written: release the target through the as-written
      unset when there is one (lines 149-150); the handle itself then no
      longer exists. */
  function DestroyAsWritten(a: Arena, h: HandleId, fuel: nat): (r: Run<Arena>)
    requires UnsetReady(a, h)
    ensures r.Done? ==> r.value.handles == a.handles - {h}
    ensures a.handles[h].target.None? ==> r.Done? && r.value.refs == a.refs && r.value.deleted == a.deleted
    ensures a.handles[h].target.Some? ==>
      var u := UnsetAsWritten(a, h, fuel);
      && r.Done? == u.Done?
      && (r.Done? ==> r.value.refs == u.value.refs && r.value.deleted == u.value.deleted)
  {
    if a.handles[h].target.None? then Done(a.(handles := a.handles - {h}))
    else
      match UnsetAsWritten(a, h, fuel)
      case Diverged => Diverged
      case Done(b) =>
        DropForgetsUpdate(a.handles, h, a.handles[h].(target := None));
        Done(b.(handles := b.handles - {h}))
  }

  /** ~STpointer over the corrected unset. */
  function Destroy(a: Arena, h: HandleId, fuel: nat): (r: Run<Arena>)
    requires UnsetReady(a, h)
    ensures r.Done? ==> r.value.handles == a.handles - {h}
    ensures a.handles[h].target.None? ==> r.Done? && r.value.refs == a.refs && r.value.deleted == a.deleted
    ensures a.handles[h].target.Some? ==>
      var u := Unset(a, h, fuel);
      && r.Done? == u.Done?
      && (r.Done? ==> r.value.refs == u.value.refs && r.value.deleted == u.value.deleted)
  {
    if a.handles[h].target.None? then Done(a.(handles := a.handles - {h}))
    else
      match Unset(a, h, fuel)
      case Diverged => Diverged
      case Done(b) =>
        DropForgetsUpdate(a.handles, h, a.handles[h].(target := None));
        Done(b.(handles := b.handles - {h}))
  }
}

=== FILE: scenarios.dfy ===
/** Small object graphs on which the two readings of unset part ways, and
    one on which an assignment is not a reset. Node and handle ids are
    chosen by hand. TwoRoots, FieldRelease, LoneContainer and TwoObjects
    can be built with the constructors and setParent alone. SelfLoop,
    MutualCycle and RootedCycle cannot: each puts a root ahead of a field
    that points back into its own object, and a field registers during
    its object's constructor, before any outside handle exists. Getting
    there takes an `operator=` rebind of a non-empty field, which leaves a
    stale entry in the field's old target's list; these arenas leave that
    entry out. OrphanCycle is only a state for loopsTo to climb in, and
    Freed is the kind of state FieldReleaseDeletesHeldAsWritten leaves
    behind: a root still points at a deleted object. */
module Scenarios {
  import opened Graph
  import opened Node
  import opened Walk
  import opened Pointer

  /** Two independent roots, handles 0 and 1, both point at node 0, and
      handle 0 was registered first. */
  function TwoRoots(): Arena
  {
    Arena(map[0 := [0, 1]], map[0 := Handle(Some(0), None), 1 := Handle(Some(0), None)], {})
  }

  /** Node 0 held by root handle 0 and by its own field, handle 1. */
  function SelfLoop(): Arena
  {
    Arena(map[0 := [0, 1]], map[0 := Handle(Some(0), None), 1 := Handle(Some(0), Some(0))], {})
  }

  /** Node 0 is held by root handle 0; its field, handle 1, holds node 1;
      node 1's field, handle 2, holds node 0 back. */
  function MutualCycle(): Arena
  {
    Arena(map[0 := [0, 2], 1 := [1]],
          map[0 := Handle(Some(0), None), 1 := Handle(Some(1), Some(0)), 2 := Handle(Some(0), Some(1))],
          {})
  }

  lemma TwoRootsReady()
    ensures Walkable(TwoRoots()) && Registered(TwoRoots())
    ensures UnsetReady(TwoRoots(), 0) && IsTree(TwoRoots(), 0)
  {
    var a := TwoRoots();
  }

  lemma SelfLoopReady()
    ensures Walkable(SelfLoop()) && Registered(SelfLoop())
    ensures UnsetReady(SelfLoop(), 0) && IsTree(SelfLoop(), 0)
  {
    var a := SelfLoop();
  }

  lemma MutualCycleReady()
    ensures Walkable(MutualCycle()) && Registered(MutualCycle())
    ensures UnsetReady(MutualCycle(), 0) && IsTree(MutualCycle(), 0)
  {
    var a := MutualCycle();
  }

  /** Resetting the first of two roots never finishes as written: the
      remaining root does not loop back, so line 180 calls unloop on it,
      and line 83 calls unloop on that same handle again and again. */
  lemma {:induction false} TwoRootsSpinAsWritten(fuel: nat)
    ensures UnsetReady(TwoRoots(), 0) && UnsetAsWritten(TwoRoots(), 0, fuel) == Diverged
  {
    TwoRootsReady();
    var a := TwoRoots();
    var a1 := Deregister(a, 0, 0);
    assert a1.refs[0] == [1];
    DetachedReleases(a, 0, 0);
    UnloopAsWrittenSpins(a1, 1, 0, fuel);
  }

  /** The corrected unset keeps node 0 alive with the other root as its only
      referrer and primary, and swaps nothing. */
  lemma TwoRootsKeepCorrected(fuel: nat)
    ensures UnsetReady(TwoRoots(), 0) &&
      var r := Unset(TwoRoots(), 0, fuel);
      && r.Done? && r.value.deleted == {} && r.value.refs == map[0 := [1]]
      && r.value.handles[0].target.None?
  {
    TwoRootsReady();
    var a := TwoRoots();
    var a1 := Deregister(a, 0, 0);
    assert a1.refs[0] == [1];
  }

  /** Resetting the root of an object that holds itself leaks it as
      written: the object's own field loops back to it, and line 179 keeps
      the object for exactly that reason. */
  lemma SelfLoopLeaksAsWritten(fuel: nat)
    ensures UnsetReady(SelfLoop(), 0) &&
      var r := UnsetAsWritten(SelfLoop(), 0, fuel);
      r.Done? && 0 !in r.value.deleted && r.value.refs[0] == [1]
  {
    SelfLoopReady();
    var a1 := Deregister(SelfLoop(), 0, 0);
    assert a1.refs[0] == [1];
  }

  /** The corrected unset deletes the object, since it is held only by its
      own field. */
  lemma SelfLoopCollectedCorrected(fuel: nat)
    ensures UnsetReady(SelfLoop(), 0) &&
      var r := Unset(SelfLoop(), 0, fuel);
      r.Done? && r.value.deleted == {0}
  {
    SelfLoopReady();
    var a1 := Deregister(SelfLoop(), 0, 0);
    assert a1.refs[0] == [1];
  }

  /** Resetting the root of a two-object cycle leaks both objects as
      written: node 0's remaining referrer climbs through node 1 back to
      node 0. */
  lemma MutualCycleLeaksAsWritten(fuel: nat)
    requires fuel >= 1
    ensures UnsetReady(MutualCycle(), 0) &&
      var r := UnsetAsWritten(MutualCycle(), 0, fuel);
      r.Done? && r.value.deleted == {}
  {
    MutualCycleReady();
    var a1 := Deregister(MutualCycle(), 0, 0);
    assert a1.refs[0] == [2];
    assert LoopsTo(a1, 2, 0, fuel) == Done(true);
  }

  /** The corrected unset deletes node 0: the climb from its remaining
      referrer reaches the container stop without any escape; destroying
      node 0's field would then release node 1 in turn. */
  lemma MutualCycleCollectedCorrected(fuel: nat)
    requires fuel >= 1
    ensures UnsetReady(MutualCycle(), 0) &&
      var r := Unset(MutualCycle(), 0, fuel);
      r.Done? && r.value.deleted == {0} && r.value.refs == map[0 := [2], 1 := [1]]
  {
    MutualCycleReady();
    var a := MutualCycle();
    var a1 := Deregister(a, 0, 0);
    assert a1.refs == map[0 := [2], 1 := [1]];
    DetachedReleases(a, 0, 0);
    assert LoopsTo(a1, 2, 0, fuel) == Done(true);
    assert Unloop(a1, 2, 0, fuel) == Done(Unlooped(true, a1));
    assert Repair(a1, 0, 0, fuel) == Done(Clear(Delete(a1, 0), 0));
    assert Unset(a, 0, fuel) == Repair(a1, 0, 0, fuel);
  }

  /** The two-object cycle of MutualCycle with a second root, handle 3,
      on node 1: after handle 0 is reset, node 0 is still reachable from
      handle 3 through node 1's field. */
  function RootedCycle(): Arena
  {
    Arena(map[0 := [0, 2], 1 := [1, 3]],
          map[0 := Handle(Some(0), None), 1 := Handle(Some(1), Some(0)),
              2 := Handle(Some(0), Some(1)), 3 := Handle(Some(1), None)],
          {})
  }

  lemma RootedCycleReady()
    ensures Walkable(RootedCycle()) && Registered(RootedCycle())
    ensures UnsetReady(RootedCycle(), 0) && IsTree(RootedCycle(), 0)
  {
  }

  /** Line 76 answers before line 77 looks: once the climb from node 0
      reaches handle 1, whose container is node 0, the as-written unloop
      reports a closed cycle although node 1's other referrer, root
      handle 3, escapes. */
  lemma RootedCycleStopsTooEarlyAsWritten(fuel: nat)
    ensures var a1 := RootedCycleDetached();
      && Deregister(RootedCycle(), 0, 0) == a1
      && RepairReady(a1, 0, 0) && UnloopReady(a1, 1)
      && LoopsTo(a1, 3, 0, fuel) == Done(false)
      && UnloopAsWritten(a1, 1, 0, fuel) == Done(Unlooped(true, a1))
  {
    RootedCycleDetaches();
  }

  /** RootedCycle once handle 0 has left node 0's list. */
  function RootedCycleDetached(): Arena
  {
    RootedCycle().(refs := map[0 := [2], 1 := [1, 3]])
  }

  lemma RootedCycleDetaches()
    ensures Deregister(RootedCycle(), 0, 0) == RootedCycleDetached()
    ensures RepairReady(RootedCycleDetached(), 0, 0)
  {
    RootedCycleReady();
    assert RemoveFirst([0, 2], 0) == [2];
    DetachedReleases(RootedCycle(), 0, 0);
  }

  /** At handle 1, whose container is node 0, the corrected unloop finds
      root handle 3 in node 1's list and promotes it. */
  lemma RootedCyclePromotes(fuel: nat)
    ensures var a1 := RootedCycleDetached();
      && UnloopReady(a1, 1)
      && Unloop(a1, 1, 0, fuel) == Done(Unlooped(false, Promote(a1, 1, 1)))
  {
    RootedCycleDetaches();
    var a1 := RootedCycleDetached();
    assert LoopsTo(a1, 3, 0, fuel) == Done(false);
    assert FindEscape(a1, [1, 3], 1, 0, fuel) == Done(Some(1));
  }

  /** The promotion swaps node 1's list to [3, 1] and leaves node 0's. */
  lemma RootedCyclePromotedLists()
    ensures Promote(RootedCycleDetached(), 1, 1).refs[0] == [2]
    ensures Promote(RootedCycleDetached(), 1, 1).refs[1] == [3, 1]
  {
  }

  /** The corrected unloop, asked from node 0's remaining referrer, climbs
      to node 1 and promotes root handle 3 there. */
  lemma {:induction false} RootedCycleUnloop(fuel: nat)
    requires fuel >= 1
    ensures var a1 := RootedCycleDetached();
      && UnloopReady(a1, 2)
      && Unloop(a1, 2, 0, fuel) == Done(Unlooped(false, Promote(a1, 1, 1)))
  {
    RootedCycleDetaches();
    var a1 := RootedCycleDetached();
    assert FindEscape(a1, [2], 1, 0, fuel) == Done(None);
    RootedCyclePromotes(fuel - 1);
    assert Unloop(a1, 2, 0, fuel) == Unloop(a1, 1, 0, fuel - 1);
  }

  /** The corrected unset therefore keeps node 0, deletes nothing, and
      leaves root handle 3 primary of node 1. */
  lemma {:induction false} RootedCycleKeptCorrected(fuel: nat)
    requires fuel >= 1
    ensures UnsetReady(RootedCycle(), 0) &&
      var r := Unset(RootedCycle(), 0, fuel);
      r.Done? && r.value.deleted == {} && r.value.refs[0] == [2] && r.value.refs[1] == [3, 1]
  {
    RootedCycleReady();
    RootedCycleDetaches();
    RootedCycleUnloop(fuel);
    RootedCyclePromotedLists();
    var a1 := RootedCycleDetached();
    assert LoopsTo(a1, 2, 0, fuel) == Done(true);
    assert Repair(a1, 0, 0, fuel) == Done(Clear(Promote(a1, 1, 1), 0));
    assert Unset(RootedCycle(), 0, fuel) == Repair(a1, 0, 0, fuel);
  }

  /** Object 0 holds itself through its own field, handle 0, and is also
      held by root handle 1; its second field, handle 2, is the primary of
      object 1, which root handle 3 holds as well. */
  function FieldRelease(): Arena
  {
    Arena(map[0 := [0, 1], 1 := [2, 3]],
          map[0 := Handle(Some(0), Some(0)), 1 := Handle(Some(0), None),
              2 := Handle(Some(1), Some(0)), 3 := Handle(Some(1), None)],
          {})
  }

  lemma FieldReleaseReady()
    ensures Walkable(FieldRelease()) && Registered(FieldRelease())
    ensures UnsetReady(FieldRelease(), 2) && IsTree(FieldRelease(), 2)
  {
  }

  /** FieldRelease once handle 2 has left object 1's list. */
  function FieldReleaseDetached(): Arena
  {
    FieldRelease().(refs := map[0 := [0, 1], 1 := [3]])
  }

  lemma FieldReleaseDetaches()
    ensures Deregister(FieldRelease(), 1, 2) == FieldReleaseDetached()
    ensures RepairReady(FieldReleaseDetached(), 2, 1)
  {
    FieldReleaseReady();
    DetachedReleases(FieldRelease(), 2, 1);
  }

  /** Resetting the field that is object 1's primary deletes object 1 as
      written, although root handle 3 still points at it: line 183 finds
      object 0's primary looping to object 0, and line 76 makes unloop
      answer true at once because that primary's container is the stop. */
  lemma FieldReleaseDeletesHeldAsWritten(fuel: nat)
    ensures UnsetReady(FieldRelease(), 2) &&
      var r := UnsetAsWritten(FieldRelease(), 2, fuel);
      && r.Done? && r.value.deleted == {1}
      && r.value.refs[1] == [3] && r.value.handles[3].target == Some(1)
  {
    FieldReleaseReady();
    FieldReleaseDetaches();
    var a1 := FieldReleaseDetached();
    assert LoopsTo(a1, 0, 0, fuel) == Done(true);
    assert UnloopAsWritten(a1, 0, 0, fuel) == Done(Unlooped(true, a1));
    assert RepairAsWritten(a1, 2, 1, fuel) == Done(Clear(Delete(a1, 1), 2));
  }

  /** The corrected unloop looks at object 0's other referrers first and
      promotes root handle 1 there. */
  lemma FieldReleasePromotes(fuel: nat)
    ensures var a1 := FieldReleaseDetached();
      && UnloopReady(a1, 0)
      && Unloop(a1, 0, 0, fuel) == Done(Unlooped(false, Promote(a1, 0, 1)))
  {
    FieldReleaseDetaches();
    var a1 := FieldReleaseDetached();
    assert LoopsTo(a1, 1, 0, fuel) == Done(false);
    assert FindEscape(a1, [0, 1], 1, 0, fuel) == Done(Some(1));
  }

  /** The promotion swaps object 0's list to [1, 0] and leaves object 1's. */
  lemma FieldReleasePromotedLists()
    ensures Promote(FieldReleaseDetached(), 0, 1).refs[0] == [1, 0]
    ensures Promote(FieldReleaseDetached(), 0, 1).refs[1] == [3]
  {
  }

  /** So the corrected unset deletes nothing, and root handle 1 becomes
      object 0's primary. */
  lemma {:induction false} FieldReleaseKeptCorrected(fuel: nat)
    ensures UnsetReady(FieldRelease(), 2) &&
      var r := Unset(FieldRelease(), 2, fuel);
      && r.Done? && r.value.deleted == {}
      && r.value.refs[0] == [1, 0] && r.value.refs[1] == [3]
  {
    FieldReleaseReady();
    FieldReleaseDetaches();
    FieldReleasePromotes(fuel);
    FieldReleasePromotedLists();
    var a1 := FieldReleaseDetached();
    assert LoopsTo(a1, 0, 0, fuel) == Done(true);
    assert Repair(a1, 2, 1, fuel) == Done(Clear(Promote(a1, 0, 1), 2));
    assert Unset(FieldRelease(), 2, fuel) == Repair(a1, 2, 1, fuel);
  }

  /** FieldRelease without root handle 1: object 0 is held only by its own
      field. */
  function LoneContainer(): Arena
  {
    Arena(map[0 := [0], 1 := [2, 3]],
          map[0 := Handle(Some(0), Some(0)), 2 := Handle(Some(1), Some(0)), 3 := Handle(Some(1), None)],
          {})
  }

  lemma LoneContainerDetaches()
    ensures UnsetReady(LoneContainer(), 2) && IsTree(LoneContainer(), 2)
    ensures Deregister(LoneContainer(), 1, 2) == LoneContainer().(refs := map[0 := [0], 1 := [3]])
    ensures RepairReady(LoneContainer().(refs := map[0 := [0], 1 := [3]]), 2, 1)
  {
    DetachedReleases(LoneContainer(), 2, 1);
  }

  /** The container branch (lines 183-184) is kept as written: once object
      0 has no other referrer, the corrected unset also deletes object 1,
      although root handle 3 still points at it. */
  lemma {:induction false} LoneContainerDeletesHeldCorrected(fuel: nat)
    ensures UnsetReady(LoneContainer(), 2) &&
      var r := Unset(LoneContainer(), 2, fuel);
      && r.Done? && r.value.deleted == {1}
      && r.value.refs[1] == [3] && r.value.handles[3].target == Some(1)
  {
    LoneContainerDetaches();
    var a1 := LoneContainer().(refs := map[0 := [0], 1 := [3]]);
    assert LoopsTo(a1, 0, 0, fuel) == Done(true);
    assert FindEscape(a1, [0], 1, 0, fuel) == Done(None);
    assert Unloop(a1, 0, 0, fuel) == Done(Unlooped(true, a1));
    assert Repair(a1, 2, 1, fuel) == Done(Clear(Delete(a1, 1), 2));
  }

  /** Handle 0, a field of object 2, points at object 0; root handle 1
      points at object 1; root handle 2 is object 2's primary. */
  function TwoObjects(): Arena
  {
    Arena(map[0 := [0], 1 := [1], 2 := [2]],
          map[0 := Handle(Some(0), Some(2)), 1 := Handle(Some(1), None), 2 := Handle(Some(2), None)],
          {})
  }

  /** TwoObjects after lines 130-137 of `h0 = h1`: handle 0 points at
      object 1 and is appended to its list, and object 0's list keeps it. */
  function TwoObjectsAssigned(): Arena
  {
    Arena(TwoObjects().refs[1 := [1, 0]], TwoObjects().handles[0 := Handle(Some(1), Some(2))], {})
  }

  lemma TwoObjectsAssigns()
    ensures AssignReady(TwoObjects(), 0, 1)
    ensures Assign(TwoObjects(), 0, 1) == TwoObjectsAssigned()
  {
    var a := TwoObjects();
    var moved := a.(handles := a.handles[0 := Handle(Some(1), Some(2))]);
    assert RemoveFirst([1], 0) == [1];
    assert moved.refs[1 := [1]] == moved.refs;
    assert Deregister(moved, 1, 0) == moved;
    assert [1] + [0] == [1, 0];
    assert AddReference(moved, 1, 0) == TwoObjectsAssigned();
  }

  /** The tail of the assignment asks whether root handle 2, the
      container's primary, loops to the container: it has no container,
      so the answer is false and line 142 returns. */
  lemma TwoObjectsTailReturns(fuel: nat)
    ensures Walkable(TwoObjectsAssigned()) && TwoObjectsAssigned().refs[2][0] == 2
    ensures LoopsTo(TwoObjectsAssigned(), 2, 2, fuel) == Done(false)
  {
  }

  /** `h0.unset()` on TwoObjects: handle 0 is object 0's only referrer, so
      object 0's list becomes empty and object 0 is deleted. */
  lemma TwoObjectsResets(fuel: nat)
    ensures UnsetReady(TwoObjects(), 0)
    ensures var r := UnsetAsWritten(TwoObjects(), 0, fuel);
      && r.Done? && 1 in r.value.refs
      && r.value.refs[0] == [] && r.value.refs[1] == [1] && r.value.deleted == {0}
  {
    var a := TwoObjects();
    assert IsTree(a, 0);
    assert RemoveFirst([0], 0) == [];
    DetachedReleases(a, 0, 0);
  }

  /** Registering handle 0 with object 1 after that reset. */
  lemma TwoObjectsResetsThenRegisters(fuel: nat)
    ensures UnsetReady(TwoObjects(), 0) && UnsetAsWritten(TwoObjects(), 0, fuel).Done?
    ensures var c := UnsetAsWritten(TwoObjects(), 0, fuel).value;
      var d := AddReference(c.(handles := c.handles[0 := Handle(Some(1), Some(2))]), 1, 0);
      d.refs[0] == [] && d.refs[1] == [1, 0] && d.deleted == {0}
  {
    TwoObjectsResets(fuel);
    var c := UnsetAsWritten(TwoObjects(), 0, fuel).value;
    var c1 := c.(handles := c.handles[0 := Handle(Some(1), Some(2))]);
    assert AddReference(c1, 1, 0).refs[1] == [1] + [0];
  }

  /** Assigning handle 1 to handle 0 is not a reset followed by a
      registration with the new target. Lines 130-137 leave handle 0 in
      object 0's list and delete nothing, and the tail returns at line 142.
      The reset would have emptied object 0's list and deleted object 0. */
  lemma AssignIsNotResetThenRegister(fuel: nat)
    ensures AssignReady(TwoObjects(), 0, 1) && UnsetReady(TwoObjects(), 0)
    ensures var b := Assign(TwoObjects(), 0, 1);
      && b.refs[0] == [0] && b.refs[1] == [1, 0] && b.refs[2] == [2] && b.deleted == {}
      && Walkable(b) && b.handles[0].parent == Some(2)
      && LoopsTo(b, b.refs[2][0], 2, fuel) == Done(false)
    ensures UnsetAsWritten(TwoObjects(), 0, fuel).Done?
    ensures var c := UnsetAsWritten(TwoObjects(), 0, fuel).value;
      var d := AddReference(c.(handles := c.handles[0 := Handle(Some(1), Some(2))]), 1, 0);
      d.refs[0] == [] && d.refs[1] == [1, 0] && d.deleted == {0}
  {
    TwoObjectsAssigns();
    TwoObjectsTailReturns(fuel);
    TwoObjectsResetsThenRegisters(fuel);
  }

  /** Object 0, already deleted, is still the target of root handle 0. */
  function Freed(): Arena
  {
    Arena(map[0 := [0]], map[0 := Handle(Some(0), None)], {0})
  }

  /** The model does not see a double free: unsetting a handle whose
      target was already deleted reaches line 175 again, and the deleted
      set stays as it was. */
  lemma DeletedTargetIsDeletedAgain(fuel: nat)
    ensures UnsetReady(Freed(), 0)
    ensures var r := UnsetAsWritten(Freed(), 0, fuel);
      && r.Done? && r.value.deleted == Freed().deleted
      && r.value.refs[0] == [] && r.value.handles[0].target.None?
  {
    assert RemoveFirst([0], 0) == [];
    DetachedReleases(Freed(), 0, 0);
  }

  /** Two objects that hold each other through their primaries and are
      held by nothing else: a climb from either never meets node 2. */
  function OrphanCycle(): Arena
  {
    Arena(map[0 := [2], 1 := [1], 2 := []],
          map[1 := Handle(Some(1), Some(0)), 2 := Handle(Some(0), Some(1))],
          {})
  }

  /** loopsTo has no bound of its own: on a cycle of primaries that does
      not pass through the node it looks for, it recurses for ever. */
  lemma {:induction false} LoopsToCanDiverge(fuel: nat)
    ensures Walkable(OrphanCycle()) && Registered(OrphanCycle())
    ensures LoopsTo(OrphanCycle(), 1, 2, fuel) == Diverged
    ensures LoopsTo(OrphanCycle(), 2, 2, fuel) == Diverged
    decreases fuel
  {
    var a := OrphanCycle();
    if fuel > 0 {
      LoopsToCanDiverge(fuel - 1);
    }
  }
}

=== FILE: walk.dfy ===
/** The read-and-repair walks of STpointer: isTree, loopsTo and unloop.
    loopsTo and unloop recurse without a bound in the source, so each takes
    a fuel argument and answers Diverged when the fuel runs out. */
module Walk {
  import opened Graph
  import opened Node

  /** What the source requires before it reads index 0 of h's target's
      referrer list. */
  ghost predicate PrimaryReadable(a: Arena, h: HandleId)
  {
    && h in a.handles
    && (a.handles[h].target.Some? ==>
          a.handles[h].target.value in a.refs && |a.refs[a.handles[h].target.value]| > 0)
  }

  /** isTree: h is the primary (owning) edge of the node it points to,
      that is, its first registration in the target's list is at index 0;
      an empty handle is never primary. */
  function IsTree(a: Arena, h: HandleId): (r: bool)
    requires PrimaryReadable(a, h)
    ensures r <==>
      && a.handles[h].target.Some?
      && h in a.refs[a.handles[h].target.value]
      && FirstIndex(a.refs[a.handles[h].target.value], h) == 0
  {
    match a.handles[h].target
    case None => false
    case Some(t) => a.refs[t][0] == h
  }

  /** Appending a referrer never changes which handle is primary, as long
      as every handle involved could be asked before. */
  lemma AddReferenceKeepsPrimary(a: Arena, n: NodeId, h: HandleId, g: HandleId)
    requires n in a.refs && PrimaryReadable(a, g)
    ensures PrimaryReadable(AddReference(a, n, h), g)
    ensures IsTree(AddReference(a, n, h), g) == IsTree(a, g)
  {
  }

  /** loopsTo(node): walk up through containers, from h's parent to that
      parent's primary referrer and on, answering true on reaching node
      and false on reaching a handle without a parent. */
  function LoopsTo(a: Arena, h: HandleId, node: NodeId, fuel: nat): (r: Run<bool>)
    requires Walkable(a) && h in a.handles
    ensures r == Done(true) ==> node in a.refs && |a.refs[node]| > 0
    ensures r.Diverged? ==> a.handles[h].parent.Some? && a.handles[h].parent != Some(node)
    decreases fuel
  {
    match a.handles[h].parent
    case None => Done(false)
    case Some(p) =>
      if p == node then Done(true)
      else if fuel == 0 then Diverged
      else LoopsTo(a, a.refs[p][0], node, fuel - 1)
  }

  /** The first n containers met when climbing from h through parents and
      primary referrers, fewer when a handle without a parent ends the
      climb first. */
  function Ancestors(a: Arena, h: HandleId, n: nat): (up: seq<NodeId>)
    requires Walkable(a) && h in a.handles
    ensures |up| <= n
    decreases n
  {
    if n == 0 then []
    else
      match a.handles[h].parent
      case None => []
      case Some(p) => [p] + Ancestors(a, a.refs[p][0], n - 1)
  }

  /** loopsTo is membership in the ancestor chain: true iff node is among
      the first fuel + 1 containers, false iff the chain ends at a root
      before that without meeting node, and Diverged otherwise. */
  lemma {:induction false} LoopsToIsAncestry(a: Arena, h: HandleId, node: NodeId, fuel: nat)
    requires Walkable(a) && h in a.handles
    ensures var up := Ancestors(a, h, fuel + 1);
      LoopsTo(a, h, node, fuel) ==
        if node in up then Done(true) else if |up| <= fuel then Done(false) else Diverged
    decreases fuel
  {
    match a.handles[h].parent
    case None =>
    case Some(p) =>
      if p != node && fuel > 0 {
        LoopsToIsAncestry(a, a.refs[p][0], node, fuel - 1);
      }
  }

  /** Once loopsTo has an answer, more fuel gives the same answer. */
  lemma {:induction false} LoopsToFuelMono(a: Arena, h: HandleId, node: NodeId, f: nat, g: nat)
    requires Walkable(a) && h in a.handles && f <= g
    ensures LoopsTo(a, h, node, f).Done? ==> LoopsTo(a, h, node, g) == LoopsTo(a, h, node, f)
    decreases f
  {
    match a.handles[h].parent
    case None =>
    case Some(p) =>
      if p != node && f > 0 {
        LoopsToFuelMono(a, a.refs[p][0], node, f - 1, g - 1);
      }
  }

  /** The search loop of unloop: the first index j >= from whose referrer
      does not loop to stop. */
  function FindEscape(a: Arena, s: seq<HandleId>, from: nat, stop: NodeId, fuel: nat): (r: Run<Option<nat>>)
    requires Walkable(a)
    requires forall i :: 0 <= i < |s| ==> s[i] in a.handles
    ensures r.Done? && r.value.Some? ==>
      && from <= r.value.value < |s|
      && LoopsTo(a, s[r.value.value], stop, fuel) == Done(false)
      && forall k :: from <= k < r.value.value ==> LoopsTo(a, s[k], stop, fuel) == Done(true)
    ensures r == Done(None) ==> forall k :: from <= k < |s| ==> LoopsTo(a, s[k], stop, fuel) == Done(true)
    ensures r.Diverged? ==> exists k :: from <= k < |s| && LoopsTo(a, s[k], stop, fuel).Diverged?
    decreases |s| - from
  {
    if from >= |s| then Done(None)
    else
      match LoopsTo(a, s[from], stop, fuel)
      case Diverged => Diverged
      case Done(loops) =>
        if loops then FindEscape(a, s, from + 1, stop, fuel) else Done(Some(from))
  }

  /** The std::swap of unloop: referrer j of node t takes index 0 and the
      old primary takes index j. */
  function Promote(a: Arena, t: NodeId, j: nat): (b: Arena)
    requires t in a.refs && j < |a.refs[t]|
    ensures Reorders(a, b)
    ensures |b.refs[t]| == |a.refs[t]| && b.refs[t][0] == a.refs[t][j] && b.refs[t][j] == a.refs[t][0]
    ensures forall k :: 0 <= k < |a.refs[t]| && k != 0 && k != j ==> b.refs[t][k] == a.refs[t][k]
    ensures forall m :: m in a.refs && m != t ==> b.refs[m] == a.refs[m]
  {
    a.(refs := a.refs[t := Swap(a.refs[t], 0, j)])
  }

  /** What unloop reports: whether the loop should be deleted, and the
      arena after any swap it made. */
  datatype Unlooped = Unlooped(collect: bool, arena: Arena)

  /** What the source requires of a handle it calls unloop on: the walk
      can follow pointers, the handle has a target (line 77 dereferences
      it), and that target has a referrer at index 0 (line 83 reads it). */
  ghost predicate UnloopReady(a: Arena, h: HandleId)
  {
    && Walkable(a)
    && Registered(a)
    && h in a.handles
    && a.handles[h].target.Some?
    && a.handles[h].target.value in a.refs
    && |a.refs[a.handles[h].target.value]| > 0
  }

  /** unloop(stop) exactly as written: a handle whose container is stop
      answers true before any referrer is searched; when no referrer at
      index 1 or later escapes, it recurses on the primary referrer of its
      own target, which is the handle itself whenever that handle is
      primary. */
  function UnloopAsWritten(a: Arena, h: HandleId, stop: NodeId, fuel: nat): (r: Run<Unlooped>)
    requires UnloopReady(a, h)
    ensures a.handles[h].parent == Some(stop) ==> r == Done(Unlooped(true, a))
    ensures r.Done? ==> Reorders(a, r.value.arena)
    ensures r.Done? && r.value.collect ==> r.value.arena == a
    decreases fuel
  {
    var t := a.handles[h].target.value;
    if a.handles[h].parent == Some(stop) then Done(Unlooped(true, a))
    else
      match FindEscape(a, a.refs[t], 1, stop, fuel)
      case Diverged => Diverged
      case Done(found) =>
        match found
        case Some(j) => Done(Unlooped(false, Promote(a, t, j)))
        case None =>
          if fuel == 0 then Diverged
          else UnloopAsWritten(a, a.refs[t][0], stop, fuel - 1)
  }

  /** unloop as intended: first look for a referrer of the target, at
      index 1 or later, that does not loop to stop, and promote it; only
      when there is none does a handle whose container is stop close the
      cycle. Otherwise climb to the primary referrer of the handle's
      container; a handle without a container is held from a root, so
      nothing is to be deleted. */
  function Unloop(a: Arena, h: HandleId, stop: NodeId, fuel: nat): (r: Run<Unlooped>)
    requires UnloopReady(a, h)
    ensures r.Done? ==> Reorders(a, r.value.arena)
    ensures r.Done? && r.value.collect ==> r.value.arena == a
    ensures var s := a.refs[a.handles[h].target.value];
      r.Done? && r.value.collect ==> forall k :: 1 <= k < |s| ==> LoopsTo(a, s[k], stop, fuel) == Done(true)
    ensures var s := a.refs[a.handles[h].target.value];
      a.handles[h].parent == Some(stop) && (forall k :: 1 <= k < |s| ==> LoopsTo(a, s[k], stop, fuel) == Done(true)) ==>
        r == Done(Unlooped(true, a))
    decreases fuel
  {
    var t := a.handles[h].target.value;
    match FindEscape(a, a.refs[t], 1, stop, fuel)
    case Diverged => Diverged
    case Done(found) =>
      match found
      case Some(j) => Done(Unlooped(false, Promote(a, t, j)))
      case None =>
        if a.handles[h].parent == Some(stop) then Done(Unlooped(true, a))
        else
          match a.handles[h].parent
          case None => Done(Unlooped(false, a))
          case Some(p) =>
            if fuel == 0 then Diverged
            else Unloop(a, a.refs[p][0], stop, fuel - 1)
  }

  /** When none of the referrers at index 1 or later of h's target ever
      escapes, the as-written unloop never reports false. */
  lemma {:induction false} UnloopAsWrittenNoEscape(a: Arena, h: HandleId, stop: NodeId, fuel: nat)
    requires UnloopReady(a, h)
    requires forall k :: 1 <= k < |a.refs[a.handles[h].target.value]| ==>
      LoopsTo(a, a.refs[a.handles[h].target.value][k], stop, fuel) != Done(false)
    ensures var r := UnloopAsWritten(a, h, stop, fuel); !(r.Done? && !r.value.collect)
    decreases fuel
  {
    var t := a.handles[h].target.value;
    var s := a.refs[t];
    if fuel > 0 {
      forall k | 1 <= k < |s|
        ensures LoopsTo(a, s[k], stop, fuel - 1) != Done(false)
      {
        LoopsToFuelMono(a, s[k], stop, fuel - 1, fuel);
      }
      UnloopAsWrittenNoEscape(a, s[0], stop, fuel - 1);
    }
  }

  /** The as-written unloop returns false only after exactly one swap, in
      its target's list: index 0 with the first index j >= 1 whose
      referrer does not loop to stop. */
  lemma {:induction false} UnloopAsWrittenSwapsOnce(a: Arena, h: HandleId, stop: NodeId, fuel: nat)
    requires UnloopReady(a, h)
    ensures var t := a.handles[h].target.value;
      var s := a.refs[t];
      var r := UnloopAsWritten(a, h, stop, fuel);
      r.Done? && !r.value.collect ==>
        exists j :: 1 <= j < |s| && r.value.arena == Promote(a, t, j)
          && LoopsTo(a, s[j], stop, fuel) == Done(false)
          && forall k :: 1 <= k < j ==> LoopsTo(a, s[k], stop, fuel) == Done(true)
  {
    var t := a.handles[h].target.value;
    var s := a.refs[t];
    if a.handles[h].parent != Some(stop) {
      var e := FindEscape(a, s, 1, stop, fuel);
      if e.Done? && e.value.Some? {
        var j := e.value.value;
        assert UnloopAsWritten(a, h, stop, fuel) == Done(Unlooped(false, Promote(a, t, j)));
      } else if e.Done? {
        UnloopAsWrittenNoEscape(a, h, stop, fuel);
      }
    }
  }

  /** Line 83 loops forever: a primary handle whose container is not stop,
      and whose target has no escaping referrer, calls unloop on itself
      again, so no amount of fuel lets it finish. */
  lemma {:induction false} UnloopAsWrittenSpins(a: Arena, h: HandleId, stop: NodeId, fuel: nat)
    requires UnloopReady(a, h)
    requires a.refs[a.handles[h].target.value][0] == h
    requires a.handles[h].parent != Some(stop)
    requires forall k, f :: 1 <= k < |a.refs[a.handles[h].target.value]| ==>
      LoopsTo(a, a.refs[a.handles[h].target.value][k], stop, f) != Done(false)
    ensures UnloopAsWritten(a, h, stop, fuel) == Diverged
    decreases fuel
  {
    if fuel > 0 {
      UnloopAsWrittenSpins(a, h, stop, fuel - 1);
    }
  }

  /** The corrected unloop stops at a handle without a container: when its
      target has no escaping referrer it reports false and changes nothing,
      where the as-written unloop spins. */
  lemma UnloopStopsAtRoot(a: Arena, h: HandleId, stop: NodeId, fuel: nat)
    requires UnloopReady(a, h)
    requires a.handles[h].parent.None?
    requires forall k :: 1 <= k < |a.refs[a.handles[h].target.value]| ==>
      LoopsTo(a, a.refs[a.handles[h].target.value][k], stop, fuel) == Done(true)
    ensures Unloop(a, h, stop, fuel) == Done(Unlooped(false, a))
  {
  }

  /** b is a after the unloop swap that makes referrer j >= 1 of node t
      primary, and that referrer's climb does not reach stop. */
  ghost predicate EscapeSwap(a: Arena, b: Arena, t: NodeId, j: nat, stop: NodeId, fuel: nat)
    requires Walkable(a)
  {
    t in a.refs && 1 <= j < |a.refs[t]| && b == Promote(a, t, j)
      && LoopsTo(a, a.refs[t][j], stop, fuel) == Done(false)
  }

  /** b is a after one unloop swap in some node's list. */
  ghost predicate PromotedEscape(a: Arena, b: Arena, stop: NodeId, fuel: nat)
    requires Walkable(a)
  {
    exists t, j :: EscapeSwap(a, b, t, j, stop, fuel)
  }

  lemma EscapeWitness(a: Arena, t: NodeId, j: nat, stop: NodeId, fuel: nat)
    requires Walkable(a) && t in a.refs && 1 <= j < |a.refs[t]|
    requires LoopsTo(a, a.refs[t][j], stop, fuel) == Done(false)
    ensures PromotedEscape(a, Promote(a, t, j), stop, fuel)
  {
    assert EscapeSwap(a, Promote(a, t, j), t, j, stop, fuel);
  }

  /** An unloop answer of false leaves a unchanged or makes one escape swap. */
  ghost predicate AtMostOneSwap(a: Arena, r: Run<Unlooped>, stop: NodeId, bound: nat)
    requires Walkable(a)
  {
    r.Done? && !r.value.collect ==> r.value.arena == a || PromotedEscape(a, r.value.arena, stop, bound)
  }

  /** One level of the corrected unloop: it reports without swapping, or
      it swaps in an escaping referrer, or it climbs to the primary referrer
      of the handle's container. */
  lemma UnloopStep(a: Arena, h: HandleId, stop: NodeId, fuel: nat, bound: nat)
    requires UnloopReady(a, h) && fuel <= bound
    ensures a.handles[h].parent.Some? ==> UnloopReady(a, a.refs[a.handles[h].parent.value][0])
    ensures
      || AtMostOneSwap(a, Unloop(a, h, stop, fuel), stop, bound)
      || (&& a.handles[h].parent.Some? && fuel > 0
          && Unloop(a, h, stop, fuel) == Unloop(a, a.refs[a.handles[h].parent.value][0], stop, fuel - 1))
  {
    if a.handles[h].parent.Some? {
      assert a.refs[a.handles[h].parent.value][0] in a.handles;
    }
    var t := a.handles[h].target.value;
    var s := a.refs[t];
    var r := Unloop(a, h, stop, fuel);
    var e := FindEscape(a, s, 1, stop, fuel);
    if e.Done? && e.value.Some? {
      var j := e.value.value;
      assert r == Done(Unlooped(false, Promote(a, t, j)));
      LoopsToFuelMono(a, a.refs[t][j], stop, fuel, bound);
      EscapeWitness(a, t, j, stop, bound);
    }
  }

  /** The corrected unloop returns false after at most one swap, made in
      the list of the target of some handle on the climb, and the swapped-in
      referrer does not loop to stop, with this fuel or any larger bound. */
  lemma {:induction false} UnloopSwapsAtMostOnce(a: Arena, h: HandleId, stop: NodeId, fuel: nat, bound: nat)
    requires UnloopReady(a, h) && fuel <= bound
    ensures AtMostOneSwap(a, Unloop(a, h, stop, fuel), stop, bound)
    decreases fuel
  {
    UnloopStep(a, h, stop, fuel, bound);
    var p := a.handles[h].parent;
    if p.Some? && fuel > 0 {
      UnloopSwapsAtMostOnce(a, a.refs[p.value][0], stop, fuel - 1, bound);
    }
  }

  /** The search loop of unloop finishes once every climb it starts does. */
  lemma FindEscapeFinishes(a: Arena, s: seq<HandleId>, stop: NodeId, f: nat, g: nat)
    requires Walkable(a) && f <= g
    requires forall i :: 0 <= i < |s| ==> s[i] in a.handles
    requires forall k :: 1 <= k < |s| ==> LoopsTo(a, s[k], stop, f).Done?
    ensures FindEscape(a, s, 1, stop, g).Done?
  {
    if FindEscape(a, s, 1, stop, g).Diverged? {
      var k :| 1 <= k < |s| && LoopsTo(a, s[k], stop, g).Diverged?;
      LoopsToFuelMono(a, s[k], stop, f, g);
    }
  }

  /** Once the search loop has finished, the corrected unloop has either
      finished too or climbed to the primary referrer of the handle's
      container. */
  lemma UnloopUnfolds(a: Arena, h: HandleId, stop: NodeId, fuel: nat)
    requires UnloopReady(a, h)
    requires FindEscape(a, a.refs[a.handles[h].target.value], 1, stop, fuel).Done?
    ensures var p := a.handles[h].parent;
      || Unloop(a, h, stop, fuel).Done?
      || (&& p.Some? && p != Some(stop) && fuel > 0
          && Unloop(a, h, stop, fuel) == Unloop(a, a.refs[p.value][0], stop, fuel - 1))
      || (p.Some? && p != Some(stop) && fuel == 0)
  {
    var t := a.handles[h].target.value;
    var e := FindEscape(a, a.refs[t], 1, stop, fuel);
    if e.value.Some? {
      assert Unloop(a, h, stop, fuel) == Done(Unlooped(false, Promote(a, t, e.value.value)));
    }
  }

  /** The questions the corrected unloop asks from h all finish: at each
      handle of its climb, every referrer at index 1 or later of that
      handle's target answers loopsTo(stop) within f steps, and the climb
      reaches stop or a handle without a container within d containers. */
  ghost predicate QuestionsFinish(a: Arena, h: HandleId, stop: NodeId, f: nat, d: nat)
    requires UnloopReady(a, h)
    decreases d
  {
    var s := a.refs[a.handles[h].target.value];
    && (forall k {:trigger LoopsTo(a, s[k], stop, f)} :: 1 <= k < |s| ==> LoopsTo(a, s[k], stop, f).Done?)
    && match a.handles[h].parent
       case None => true
       case Some(p) => p == stop || (d > 0 && QuestionsFinish(a, a.refs[p][0], stop, f, d - 1))
  }

  /** One level of the corrected unloop when its questions finish: below a
      container other than stop, the questions from the container's
      primary finish with one container less, and the corrected unloop has
      finished or climbed there. */
  lemma UnloopClimbs(a: Arena, h: HandleId, stop: NodeId, f: nat, d: nat)
    requires UnloopReady(a, h) && QuestionsFinish(a, h, stop, f, d)
    ensures var p := a.handles[h].parent;
      p.Some? && p != Some(stop) ==>
        && d > 0
        && var g := a.refs[p.value][0];
        && UnloopReady(a, g)
        && QuestionsFinish(a, g, stop, f, d - 1)
        && (Unloop(a, g, stop, f + (d - 1)).Done? ==> Unloop(a, h, stop, f + d).Done?)
    ensures var p := a.handles[h].parent;
      !(p.Some? && p != Some(stop)) ==> Unloop(a, h, stop, f + d).Done?
  {
    FindEscapeFinishes(a, a.refs[a.handles[h].target.value], stop, f, f + d);
    UnloopUnfolds(a, h, stop, f + d);
  }

  /** The corrected unloop finishes whenever the questions it asks do: if
      every loopsTo(stop) it asks along its climb answers within f steps
      and the climb ends within d containers, then f + d steps are
      enough. */
  lemma {:induction false} UnloopFinishes(a: Arena, h: HandleId, stop: NodeId, f: nat, d: nat)
    requires UnloopReady(a, h) && QuestionsFinish(a, h, stop, f, d)
    ensures Unloop(a, h, stop, f + d).Done?
    decreases d
  {
    UnloopClimbs(a, h, stop, f, d);
    var p := a.handles[h].parent;
    if p.Some? && p != Some(stop) {
      UnloopFinishes(a, a.refs[p.value][0], stop, f, d - 1);
    }
  }
}
